=== FILE: README.md ===
# Room runners: the maze model

A Dafny model of the room/boundary graph of *room-runers*, a small console maze
game. Players move between rooms. Each room has four boundary slots (up, right,
down, left), and each slot holds a boundary. There are three boundary classes:

- a **Wall** never lets anybody through;
- a **Door** takes a character from one of its two rooms to the other;
- a **Portal** is a Door that lets a character through only once its timer is up.

The repository holds three snapshots of the same design, and all three are
modelled:

| version | files | Dafny modules |
|---|---|---|
| current | `src/model/level.py`, `src/model/game_objects.py` | `Level` (passage state machine, two characters, lookup) |
| second | `model/level.py` | `SoloLevel` (one character in the room at (0, 0)) on top of `Stateless` |
| first | `model.py` | `Prototype` (generator without a cap) on top of `Stateless` |

Every version uses the same grid builder, modelled once and generic in the
boundary state:

- `Maze`: points, directions, boundary records, and `Across`, the swap rule of a Door.
- `Grid`: the n x n matrix, the boundary arena and the wiring invariant `Wired`, plus the builder `Build`.
- `Generator`: the capped boundary generator.
- `Timers`: the portal timer.

Representation:

- Rooms are addressed by location. `rooms[y][x]` is the room at `(x, y)`, and up means `y - 1`.
- Boundaries live in a map keyed by a handle. Two neighbouring rooms hold the same handle for the boundary they share, which stands in for the program's shared object.
- Python's identity test `is` on rooms becomes equality of `Option<Point>`. A character without a room is `None`.
- The random draws of `random.choice` are an oracle: a finite sequence of classes consumed in call order. When it runs dry, the result is `None`.
- The random room picks of `_find_random_room` are parameters.

Behaviour of the current version that the model follows:

- A passage attempt does not advance a Portal's timer. Only an external `update()` does, and its caller is not in the modelled files, so `Level.TickPortal` stands in for it.
- Nothing resets a Portal's charge when the character that started it walks off through another slot. The charge then serves the other character, coming from the far side (`Level.ChargeOutlivesCharacter`).
- The room never tells a boundary that was left behind that its pending character is gone.
- `get_character_from_room` asks `character_1` first, so that character is the one found when both share a room.

The Door of the current version reads `character.current_room`. The character
class stores `_room`, and the comment in `get_character_from_room` asks for a
`current_room` property. Both are modelled as the single field `RoomOf`.

The wall cap is tested before the counter rises (`percent > 20`, then
`walls += 1`). The bound the generator actually keeps is therefore
`5 * walls <= count + 5`: the last accepted Wall may take the share one wall
past 20 percent. `Generator.WallCapOvershoot` shows it on a 3 x 3 level.

The timer implementation is not part of this model. `Timers` assumes the
following behaviour of the `ITimer` interface, and states it in its module
comment:

- `start` activates the timer;
- `update` adds one tick, but only while the timer is active;
- `reset` deactivates it and zeroes the count;
- `is_times_up` holds once `current_time >= end_time`.

## Model

| member | source | states |
|---|---|---|
| Maze.AcrossSwaps | src/model/level.py:174-183 | From either room of a two-sided boundary, the Door rule leads to the other room. Crossing twice leads back. |
| Maze.AcrossNeedsBothSides | src/model/level.py:174-183 | A character crosses only from one of the two sides, and only into the other one. A character that has a room never crosses a one-sided boundary. |
| Maze.InternalCountExamples | tests/model_tests.py:8-42 | The internal boundary count is 0, 4, 12 and 180 for sizes 1, 2, 3 and 10, and is 2n(n-1) in general. |
| Timers.Ticks | src/model/interface.py:133-156 | k updates advance an active timer by k ticks and leave an inactive one alone. Its duration and activity never change. |
| Timers.ChargeNeedsEndTicks | src/model/interface.py:133-156 | A freshly started timer of duration d is up after k updates exactly when k >= d. |
| Timers.InactiveNeverCharges | src/model/interface.py:133-156 | An inactive timer ignores any number of updates. |
| Timers.ResetDischarges | src/model/interface.py:133-156 | A reset timer is inactive, keeps its duration, and is up only when that duration is zero. |
| Generator.Select | src/model/level.py:232-240 | The accepted class is the first draw that is not a rejected Wall. Walls are skipped only while the generator is saturated. The counter rises exactly when a Wall is accepted. The draws run dry exactly when only Walls remain and the cap refuses them, or when nothing remains. |
| Generator.SelectKeepsCap | src/model/level.py:229-240 | Each accepted boundary keeps walls within 20 percent of the internal count plus one. |
| Generator.DrawInternal | src/model/level.py:315-318 | Successive calls yield one class per call. The counter ends at the number of Walls produced, and the cap is kept throughout. |
| Generator.SelectSpendsOneNonWall | src/model/level.py:232-240 | A call succeeds whenever a draw other than Wall remains, and it uses up at most one such draw. |
| Generator.DrawsSuffice | src/model/level.py:232-240 | Any number of calls finishes when the draws hold at least that many classes other than Wall, whatever Walls lie between them. |
| Generator.LevelDrawsSuffice | src/model/level.py:315-318 | A fresh generator for a level of size n completes the 2n(n-1) internal calls whenever at least that many draws are not Walls. |
| Generator.DrawKinds | src/model/level.py:219-227 | A level's internal classes number 2n(n-1), and the number of Walls among them is at most count / 5 + 1. A one-room level draws nothing. Drawing always completes when at least 2n(n-1) draws are not Walls. |
| Generator.WallFreeDrawsAccepted | src/model/level.py:232-249 | When no Wall is drawn nothing is rejected: the calls take the draws one for one. |
| Generator.WallCapOvershoot | src/model/level.py:236-240 | On a 3 x 3 level three Walls out of twelve (25 percent) are accepted before the fourth is refused. |
| Grid.SlotCrossing | src/model/level.py:320-362 | In a wired grid, slot d of a room leads to the neighbour in direction d, or nowhere from an outward-facing slot. The neighbour's opposite slot holds the same boundary. |
| Grid.SameTopologyKeepsClosed | src/model/level.py:145-215 | Passage changes only boundary state, and that keeps every slot and room reference resolvable. |
| Grid.SameTopologyKeepsWired | src/model/level.py:145-215 | Passage changes only boundary state, and that keeps the whole wiring invariant. |
| Grid.BuildLocations | src/model/level.py:277-286 | `rooms[y][x]` has location (x, y). |
| Grid.SlotHandleEdge | src/model/level.py:288-362 | The boundary placed in each slot has that slot's position and points back at the room. It is shared with the facing slot (left or upper room first) when a neighbour exists, and is one-sided otherwise. |
| Grid.BuildUnshared | src/model/level.py:288-362 | Two slots hold the same boundary only if they are the facing slots of neighbouring rooms, so each outward Wall is a distinct boundary. |
| Grid.BuildClosed | src/model/level.py:271-275 | Every slot of the generated grid names a stored boundary, and every boundary names rooms of the grid. |
| Grid.BuildWired | src/model/level.py:271-362 | The generated grid satisfies the full wiring invariant: locations, four filled slots per room, one-sided outward Walls, and shared internal boundaries with the right positions and sides. |
| Grid.BuildGates | src/model/level.py:288-362 | Outward slots hold a fresh Wall. Each internal edge holds the boundary the generator produced at that edge's turn: vertical edges row by row, then horizontal edges. |
| Level.ChangeRoom | src/model/game_objects.py:8-9 | Only this character's room changes, to the given room. |
| Level.WantsToPass | src/model/level.py:145-146 | Only the pending character of that boundary changes. A Portal keeps its charge. |
| Level.IsGone | src/model/level.py:148-149 | The pending character is cleared and the class is kept. A Portal also resets its timer, as its override at src/model/level.py:197-199 does. |
| Level.DoorMove | src/model/level.py:170-185 | With nobody pending nothing changes. Otherwise the pending character lands across the door when it stands on a side whose other side exists, and stays otherwise. The door then forgets it, and only that character and that boundary change. |
| Level.PortalCharge | src/model/level.py:210-215 | With a character pending, an inactive timer is started. Until it is up, the character waits with its pending mark and nothing else changes. Once it is up, the character lands across the boundary and the portal is idle with its timer reset. Only the boundary and that character are touched. |
| Level.PortalFire | src/model/level.py:213-215 | A Portal whose timer is up moves the pending character as a Door would, then is idle with its timer reset. |
| Level.PortalMove | src/model/level.py:201-215 | With nobody pending, the only effect is a timer reset: no character moves, no other boundary changes and the topology is kept. Otherwise an inactive timer is started. If the started timer is up, the character crosses and the portal goes idle. If not, the character and its pending mark stay and the timer keeps its charge. |
| Level.Move | src/model/level.py:151-215 | Any class of boundary moves only its pending character, and only to the other side of that boundary. With nobody pending, no character moves and no other boundary changes. A Wall moves nobody and clears its pending character. |
| Level.MoveKeepsValid | src/model/level.py:151-215 | A move keeps every room reference of the level inside the grid. |
| Level.CrossingKeepsValid | src/model/level.py:174-183 | A change that only alters boundary state and leaves each character in place or takes it across one boundary keeps every room reference inside the grid. |
| Level.TickPortal | src/model/interface.py:152-153 | An external update changes only that portal's timer, by one timer update. |
| Level.TickPortalTimes | src/model/interface.py:152-153 | k external updates change only that portal's timer, as k timer updates would. Validity and wiring are kept. |
| Level.TouchesOnlyAfterRequest | src/model/level.py:81-99 | A request to one boundary followed by its move changes nothing but that boundary and the requesting character. |
| Level.Release | src/model/level.py:81-99 | An empty slot changes nothing. Otherwise only the boundary in the named slot and the character change. The outcome depends on the boundary's class. A Wall keeps the character and is left clear. A Door lands it on the other side and is left clear. A Portal keeps it pending while its started timer is not up. Once the timer is up, the Portal lets the character across and goes idle with its timer reset. |
| Level.TryToGo | src/model/game_objects.py:11-25 | A character without a room changes nothing. Otherwise its room, which lies in the level, releases it in direction d: only the boundary in its room's slot d is touched, the other character never moves, and the level stays valid and wired. |
| Level.AttemptIsMove | src/model/level.py:81-99 | An attempt through a filled slot is a passage request to that slot's boundary followed by its move. |
| Level.RequestWall | src/model/level.py:156-163 | A request at a Wall keeps the character in place and leaves the Wall with nobody pending. |
| Level.RequestDoor | src/model/level.py:166-185 | A request at a Door lands the character across, when there is an across. The Door ends with nobody pending. |
| Level.RequestPortalCharging | src/model/level.py:210-215 | A request at a Portal whose started timer is not yet up keeps the character in place, pending, with the timer started. |
| Level.RequestPortalFires | src/model/level.py:210-215 | A request at a Portal whose started timer is up moves the character as a Door would. The portal goes idle with a reset timer. |
| Level.DoorRoundTrip | src/model/level.py:166-185 | Through a two-sided Door one attempt changes the character's room and a second attempt brings it back. The other character never moves. |
| Level.Step | src/model/level.py:156-185 | In a wired level, going through an outward slot or a Wall keeps the character's room. Going through an inner Door reaches the neighbour in that direction. |
| Level.StepThroughPortal | src/model/level.py:188-215 | Towards a neighbour through a Portal, the character crosses exactly when the started timer is up. Otherwise it waits at the charging portal. |
| Level.PortalNeedsCharge | src/model/level.py:210-215 | At an idle Portal of duration d, the first attempt only starts the timer. After k external updates, the next attempt crosses exactly when k >= d. |
| Level.ChargeOutlivesCharacter | src/model/level.py:201-208 | A character starts charging a Portal and then tries another slot of its room. The portal keeps its pending mark and started timer. Once the charge is complete, the other character, on the far side, crosses into the first room at its first attempt. |
| Level.DepartureKeepsGate | src/model/level.py:81-99 | Trying another slot of the same room leaves the boundary in slot d untouched, and the other character stays where it is. |
| Level.Fresh | src/model/level.py:242-247 | A generated boundary has the drawn class and nobody pending. A Portal gets its own idle timer of duration 2. |
| Level.NewLevel | src/model/level.py:252-258 | A level exists exactly when the capped generator finishes. It is valid, wired and n x n, with `character_1` and `character_2` in the rooms `rooms[row][col]` of their picks. |
| Level.NewLevelGates | src/model/level.py:288-362 | In a new level, outward slots hold idle Walls and each internal edge a fresh boundary of the class drawn at its turn. |
| Level.GetCharacterFromRoom | src/model/level.py:264-269 | The character found is in that room. Nobody is found exactly when neither character is there. `character_2` is found only when `character_1` is elsewhere. |
| Level.LookupFindsOccupant | src/model/level.py:264-269 | The room of a placed character always yields a character. It yields that very character unless it is `character_2` sharing a room with `character_1`. |
| Level.PlacedCharactersAreFound | src/model/level.py:364-369 | After generation `character_1` is found in its room. `character_2` is found in its room exactly when the two picks differ. Nobody is found anywhere else. |
| Stateless.Pass | model/level.py:95-127 | A Wall keeps the character. A Door or Portal sends it across when it stands on a side whose other side exists, and keeps it otherwise. |
| Stateless.PortalIsDoor | model/level.py:123-127 | In these versions a Portal behaves exactly as a Door. |
| Stateless.PassTwice | model/level.py:107-115 | Crossing a two-sided Door or Portal changes the room, and crossing again returns. |
| Stateless.Release | model/level.py:69-83 | An empty slot keeps the character. Otherwise the slot's boundary moves it, with this room as the current room, and the result stays inside the grid. |
| Stateless.ReleaseStep | model.py:163-177 | In a wired level, direction d leads to the neighbouring room exactly when it exists and the boundary between is not a Wall. |
| Stateless.StepBack | model.py:221-229 | Through a non-Wall inner boundary, a step and the step back in the opposite direction return to the start. |
| Stateless.TryToGo | model.py:193-206 | `change_room` then puts the character where its own room releases it in direction d, which is always a room of the grid. |
| Stateless.Glyph | model.py:215-246 | A horizontal glyph is three characters wide and a vertical one one character. |
| Stateless.GlyphRoundTrip | model.py:215-246 | Every class has its own glyph at each position: the helper `ParseGlyph`, which is not part of the program, reads each glyph back to its class, so the glyph map is injective. |
| Prototype.DrawKinds | model.py:249-258 | Without a cap, the internal classes are exactly the first 2n(n-1) draws. Fewer draws yield nothing. |
| Prototype.NewLevel | model.py:261-270 | A level of any size, size 0 included, exists when enough draws are given. It is wired and n x n. |
| Prototype.NewLevelGates | model.py:283-357 | Outward slots hold Walls and each internal edge the draw taken at its turn. |
| Prototype.CapIdleWithoutWalls | model.py:254-258 | When no Wall is drawn, the capped generator and this uncapped one produce the same classes. |
| Prototype.UncappedAdmitsAllWalls | model.py:254-258 | Without the cap, a 2 x 2 level can have all four internal boundaries as Walls. The capped generator refuses the second Wall and, given only Walls, never finishes. |
| SoloLevel.NewLevel | model/level.py:168-172 | A level exists exactly when the capped generator finishes. It is wired and n x n, with the character in the room at (0, 0). |
| SoloLevel.NewLevelGates | model/level.py:199-273 | Outward slots hold Walls and each internal edge the class the capped generator accepted at its turn. |
| SoloLevel.StartsAtOrigin | model/level.py:275-279 | In a new level, `is_character_in_this_room` holds for the room at (0, 0) and for no other room. |
| SoloLevel.FoundInOneRoom | model/level.py:178-180 | After any move from the start, `is_character_in_this_room` holds for exactly one room: the one the starting room released the character to, which lies inside the level. |

## Left out

- Console I/O and rendering are not modelled: `Level.print`, `main.py` and `src/view.py`. Only the per-class glyph map is modelled.
- The `Timer` class and the caller of `update()` are not part of this model. The timer is the abstract `Timers` module, and updates come from `Level.TickPortal`.
- Randomness is modelled as an oracle, and no statistical claims are made:
  - class draws are a sequence of classes;
  - room picks are (row, col) parameters.
- Generator.DrawKinds: an exhausted oracle yields `None`. The model puts no limit on the number of rejected Walls in a row. The program retries by a recursive call (src/model/level.py:238), so after about 1000 rejections in a row it would stop with Python's `RecursionError`.
- The wall percentage is computed with floating-point division in the source. The model compares `walls * 100 > 20 * count` exactly, which gives the same verdict for these small integers.
- Level.NewLevel: the size must be at least 1. For size 0, `_find_random_room` calls `randint(0, -1)` and the program fails.
- SoloLevel.NewLevel: the size must be at least 1. For size 0, `rooms[0][0]` does not exist and the program fails.
- The generator's `count > 0` precondition is not a gap. It is only needed when an internal boundary is requested, and a one-room level requests none, so the division by zero in `_calculate_walls_percent` is never reached.
- The four directional `try_to_go_*` and `try_to_release_character_*` methods are one operation taking a `Direction`.
- The `__ini__` misspelling in the current Door has no effect and is not modelled.
- The unused `self._size = size - 1` of the first generator is not modelled.
- `__str__` of points, rooms and boundary objects is not modelled, apart from the glyphs.
- Stateless.Glyph: its contract states only the widths. The exact strings are its definition, and `Stateless.GlyphRoundTrip` states that they are pairwise distinct.
- The interface modules (`src/model/interface.py`, `model/interface.py`) declare types only. They serve for names and the timer signature.
- Character names are not modelled, and neither is the AttributeError the current Door would raise on `current_room`.

=== FILE: generator.dfy ===
/** `BoundaryGenerator` of the capped versions: it draws a boundary class at
    random and rejects a Wall (drawing again) when the walls accepted so far
    already make up more than 20 percent of the internal boundaries.

    The random draws are an oracle: a finite sequence of kinds consumed from the
    front. Running out of draws yields None; the program itself would keep
    drawing. */
module Generator {
  import opened Maze

  /** `_max_walls_percent` */
  const MaxWallsPercent: nat := 20

  /** `_internal_boundaries_amount` and `_internal_walls_amount`. */
  datatype Generator = Generator(count: nat, walls: nat)

  function New(size: nat): Generator
  {
    Generator(InternalCount(size), 0)
  }

  /** `_calculate_walls_percent() > _max_walls_percent`, compared exactly:
      walls * 100 / count > 20 holds iff walls * 100 > 20 * count. */
  predicate Saturated(g: Generator)
  {
    g.walls * 100 > MaxWallsPercent * g.count
  }

  /** The bound the generator actually keeps: walls <= count / 5 + 1.
      Because the test happens before the increment, the last accepted Wall may
      take the share one wall past 20 percent. */
  predicate WithinCap(g: Generator)
  {
    5 * g.walls <= g.count + 5
  }

  /** `get_boundary`'s choice of class, with its reject-and-retry recursion.
      Returns the accepted kind, the updated generator and the unused draws. */
  function Select(g: Generator, draws: seq<Kind>): (r: Option<(Kind, Generator, seq<Kind>)>)
    requires g.count > 0
    // the accepted kind is the first draw that is not a rejected Wall
    ensures r.Some? ==>
      var (k, g', rest) := r.value;
      |rest| < |draws| && rest == draws[|draws| - |rest|..] && k == draws[|draws| - |rest| - 1]
      && (forall j :: 0 <= j < |draws| - |rest| - 1 ==> draws[j] == Wall)
      && (|draws| - |rest| > 1 ==> Saturated(g))
    // the counter rises exactly when a Wall is returned, and only below the cap
    ensures r.Some? ==>
      var (k, g', rest) := r.value;
      g'.count == g.count && g'.walls == g.walls + (if k == Wall then 1 else 0)
      && (k == Wall ==> !Saturated(g))
    // the oracle runs dry exactly when only Walls remain and the cap refuses
    // them (or nothing remains at all)
    ensures r.None? <==> NonWalls(draws) == 0 && (|draws| == 0 || Saturated(g))
    decreases |draws|
  {
    if |draws| == 0 then None
    else if draws[0] == Wall && Saturated(g) then Select(g, draws[1..])
    else if draws[0] == Wall then Some((Wall, g.(walls := g.walls + 1), draws[1..]))
    else Some((draws[0], g, draws[1..]))
  }

  /** Each accepted boundary keeps the generator within the cap. */
  lemma SelectKeepsCap(g: Generator, draws: seq<Kind>)
    requires g.count > 0 && WithinCap(g)
    ensures Select(g, draws).Some? ==> WithinCap(Select(g, draws).value.1)
  {
  }

  /** `todo` successive `get_boundary` calls on one generator, in call order. */
  function DrawInternal(g: Generator, draws: seq<Kind>, todo: nat): (r: Option<(seq<Kind>, Generator, seq<Kind>)>)
    requires todo > 0 ==> g.count > 0
    ensures r.Some? ==> |r.value.0| == todo && r.value.1.count == g.count
    ensures r.Some? ==> r.value.1.walls == g.walls + CountWalls(r.value.0)
    ensures r.Some? && WithinCap(g) ==> WithinCap(r.value.1)
    ensures r.Some? ==> |r.value.2| <= |draws|
    decreases todo
  {
    if todo == 0 then Some(([], g, draws))
    else
      match Select(g, draws)
      case None => None
      case Some((k, g1, rest)) =>
        match DrawInternal(g1, rest, todo - 1)
        case None => None
        case Some((ks, g2, rest2)) => Some(([k] + ks, g2, rest2))
  }

  /** Draws without Walls are never rejected: each call takes the next draw. */
  lemma {:induction false} WallFreeDrawsAccepted(g: Generator, draws: seq<Kind>, todo: nat)
    requires todo > 0 ==> g.count > 0
    requires todo <= |draws| && forall i :: 0 <= i < todo ==> draws[i] != Wall
    ensures DrawInternal(g, draws, todo) == Some((draws[..todo], g, draws[todo..]))
    decreases todo
  {
    if todo > 0 {
      assert Select(g, draws) == Some((draws[0], g, draws[1..]));
      WallFreeDrawsAccepted(g, draws[1..], todo - 1);
      assert [draws[0]] + draws[1..][..todo - 1] == draws[..todo];
      assert draws[1..][todo - 1..] == draws[todo..];
    }
  }

  /** The number of draws that are not Walls. */
  function NonWalls(ks: seq<Kind>): (c: nat)
    ensures c <= |ks|
    ensures c == 0 <==> forall j :: 0 <= j < |ks| ==> ks[j] == Wall
  {
    if |ks| == 0 then 0 else (if ks[0] == Wall then 0 else 1) + NonWalls(ks[1..])
  }

  /** A call succeeds as soon as a draw that is not a Wall remains, and it
      uses up at most one such draw: the rejected draws before it are all
      Walls. */
  lemma {:induction false} SelectSpendsOneNonWall(g: Generator, draws: seq<Kind>)
    requires g.count > 0 && NonWalls(draws) > 0
    ensures Select(g, draws).Some? && NonWalls(Select(g, draws).value.2) + 1 >= NonWalls(draws)
    decreases |draws|
  {
    if draws[0] == Wall && Saturated(g) {
      SelectSpendsOneNonWall(g, draws[1..]);
    }
  }

  /** `todo` calls always finish when the draws hold at least `todo` classes
      other than Wall, whatever Walls lie between them. */
  lemma {:induction false} DrawsSuffice(g: Generator, draws: seq<Kind>, todo: nat)
    requires todo > 0 ==> g.count > 0
    requires todo <= NonWalls(draws)
    ensures DrawInternal(g, draws, todo).Some?
    decreases todo
  {
    if todo > 0 {
      SelectSpendsOneNonWall(g, draws);
      var (k, g1, rest) := Select(g, draws).value;
      DrawsSuffice(g1, rest, todo - 1);
    }
  }

  lemma LevelDrawsSuffice(n: nat, draws: seq<Kind>)
    requires InternalCount(n) > 0
    ensures InternalCount(n) <= NonWalls(draws) ==> DrawInternal(New(n), draws, InternalCount(n)).Some?
  {
    if InternalCount(n) <= NonWalls(draws) {
      DrawsSuffice(New(n), draws, InternalCount(n));
    }
  }

  /** The overshoot is reachable: on a 3 x 3 level (12 internal boundaries) three
      Walls are accepted (25 percent) before the fourth is refused. */
  lemma WallCapOvershoot()
    ensures DrawInternal(New(3), [Wall, Wall, Wall, Wall, Door], 4)
            == Some(([Wall, Wall, Wall, Door], Generator(12, 3), []))
    ensures 3 * 100 > MaxWallsPercent * 12
  {
    var g := New(3);
    assert g == Generator(12, 0);
    var d := [Wall, Wall, Wall, Wall, Door];
    assert Select(Generator(12, 0), d) == Some((Wall, Generator(12, 1), d[1..]));
    assert Select(Generator(12, 1), d[1..]) == Some((Wall, Generator(12, 2), d[2..]));
    assert Select(Generator(12, 2), d[2..]) == Some((Wall, Generator(12, 3), d[3..]));
    assert d[3..][1..] == [Door];
    assert Select(Generator(12, 3), d[3..]) == Some((Door, Generator(12, 3), []));
    var e: seq<Kind> := [];
    assert DrawInternal(Generator(12, 3), e, 0) == Some((e, Generator(12, 3), e));
    assert [Door] + e == [Door];
    assert DrawInternal(Generator(12, 3), d[3..], 1) == Some(([Door], Generator(12, 3), e));
    assert [Wall] + [Door] == [Wall, Door];
    assert DrawInternal(Generator(12, 2), d[2..], 2) == Some(([Wall, Door], Generator(12, 3), e));
    assert [Wall] + [Wall, Door] == [Wall, Wall, Door];
    assert DrawInternal(Generator(12, 1), d[1..], 3) == Some(([Wall, Wall, Door], Generator(12, 3), e));
    assert [Wall] + [Wall, Wall, Door] == [Wall, Wall, Wall, Door];
  }

  /** `_arrange_internal_boundaries`: the classes of the internal boundaries in
      the order the generator is called, or None when the draws run out. A
      level without internal edges draws nothing. The capped generator keeps
      the walls within 20 percent of the internal boundaries plus one. */
  function DrawKinds(n: nat, draws: seq<Kind>): (r: Option<seq<Kind>>)
    ensures r.Some? ==> |r.value| == InternalCount(n)
    ensures r.Some? ==> 5 * CountWalls(r.value) <= InternalCount(n) + 5
    ensures InternalCount(n) == 0 ==> r == Some([])
    // enough draws other than Wall always complete the level
    ensures InternalCount(n) <= NonWalls(draws) ==> r.Some?
  {
    if InternalCount(n) == 0 then Some([])
    else
      LevelDrawsSuffice(n, draws);
      match DrawInternal(New(n), draws, InternalCount(n))
      case None => None
      case Some((ks, _, _)) => Some(ks)
  }
}

=== FILE: grid.dfy ===
/** The room matrix and its boundary arena, as `Level._generate` builds it in
    every version: an n x n matrix with `rooms[y][x]` at location (x, y), a
    one-sided Wall on every outward-facing slot, and one shared boundary per
    internal edge, whose `room1` is the left (or upper) room and `room2` the right
    (or lower) one.

    The grid is generic in the boundary state `G`, which differs between the
    versions of the program. */
module Grid {
  import opened Maze

  datatype Grid<G> = Grid(size: nat, rooms: seq<seq<Room>>, boundaries: map<BoundaryId, Boundary<G>>)

  /** The matrix is size x size. */
  predicate Shaped<G>(g: Grid<G>)
  {
    |g.rooms| == g.size && forall y :: 0 <= y < |g.rooms| ==> |g.rooms[y]| == g.size
  }

  function RoomAt<G>(g: Grid<G>, p: Point): Room
    requires Shaped(g) && InBounds(p, g.size)
  {
    g.rooms[p.y][p.x]
  }

  function SlotOf<G>(g: Grid<G>, p: Point, d: Direction): Option<BoundaryId>
    requires Shaped(g) && InBounds(p, g.size)
  {
    Slot(RoomAt(g, p), d)
  }

  predicate RefsInBounds<G>(b: Boundary<G>, n: int)
  {
    (b.room1.Some? ==> InBounds(b.room1.value, n)) && (b.room2.Some? ==> InBounds(b.room2.value, n))
  }

  /** Referential integrity of the arena: every filled slot names a stored
      boundary, and every stored boundary names rooms of the matrix. */
  ghost predicate Closed<G>(g: Grid<G>)
  {
    && Shaped(g)
    && (forall p, d :: InBounds(p, g.size) && SlotOf(g, p, d).Some? ==> SlotOf(g, p, d).value in g.boundaries)
    && (forall id :: id in g.boundaries ==> RefsInBounds(g.boundaries[id], g.size))
  }

  /** Slot `d` of room `p` is filled, and the boundary there has the position of
      that slot and points back at `p`: shared with the neighbour's opposite slot
      (left/upper room first) when the neighbour exists, one-sided otherwise. */
  predicate SlotWired<G>(g: Grid<G>, p: Point, d: Direction)
    requires Shaped(g) && InBounds(p, g.size)
  {
    var s := SlotOf(g, p, d);
    var q := Neighbour(p, d);
    && s.Some? && s.value in g.boundaries
    && g.boundaries[s.value].position == SlotPosition(d)
    && if InBounds(q, g.size) then
         && SlotOf(g, q, Opposite(d)) == s
         && (if d == Right || d == Down
             then g.boundaries[s.value].room1 == Some(p) && g.boundaries[s.value].room2 == Some(q)
             else g.boundaries[s.value].room1 == Some(q) && g.boundaries[s.value].room2 == Some(p))
       else
         g.boundaries[s.value].room1 == Some(p) && g.boundaries[s.value].room2 == None
  }

  /** Two slots hold the same boundary only when they are the facing slots of two
      neighbouring rooms; in particular every outward wall is held by one slot. */
  ghost predicate Unshared<G>(g: Grid<G>)
    requires Shaped(g)
  {
    forall p, d, q, e :: InBounds(p, g.size) && InBounds(q, g.size) && SlotOf(g, p, d) == SlotOf(g, q, e) ==>
      (p == q && d == e) || (q == Neighbour(p, d) && e == Opposite(d))
  }

  /** The room/boundary graph invariant of a generated level. */
  ghost predicate Wired<G>(g: Grid<G>)
  {
    && Closed(g)
    && (forall p :: InBounds(p, g.size) ==> RoomAt(g, p).location == p)
    && (forall p, d :: InBounds(p, g.size) ==> SlotWired(g, p, d))
    && Unshared(g)
  }

  /** Two grids with the same matrix and the same boundaries up to their state. */
  predicate SameTopology<G>(g: Grid<G>, h: Grid<G>)
  {
    && g.size == h.size && g.rooms == h.rooms && g.boundaries.Keys == h.boundaries.Keys
    && forall id :: id in g.boundaries ==>
         && h.boundaries[id].position == g.boundaries[id].position
         && h.boundaries[id].room1 == g.boundaries[id].room1
         && h.boundaries[id].room2 == g.boundaries[id].room2
  }

  /** In a wired grid, slot `d` of room `p` leads to the neighbouring room in
      direction `d`, and from an outward-facing slot nowhere; coming back through
      the neighbour's opposite slot uses the same boundary. */
  lemma SlotCrossing<G>(g: Grid<G>, p: Point, d: Direction)
    requires Wired(g) && InBounds(p, g.size)
    ensures SlotOf(g, p, d).Some? && SlotOf(g, p, d).value in g.boundaries
    ensures var bd := g.boundaries[SlotOf(g, p, d).value];
      Across(bd, Some(p)) == if InBounds(Neighbour(p, d), g.size) then Some(Neighbour(p, d)) else None
    ensures InBounds(Neighbour(p, d), g.size) ==> SlotOf(g, Neighbour(p, d), Opposite(d)) == SlotOf(g, p, d)
  {
    assert SlotWired(g, p, d);
    NeighbourOpposite(p, d);
  }

  /** Changing only boundary state keeps referential integrity. */
  lemma SameTopologyKeepsClosed<G>(g: Grid<G>, h: Grid<G>)
    requires SameTopology(g, h)
    ensures Closed(g) ==> Closed(h)
  {
    if !Closed(g) {
      return;
    }
    assert Shaped(h);
    forall p, d | InBounds(p, h.size)
      ensures SlotOf(h, p, d) == SlotOf(g, p, d)
    {
    }
    forall id | id in h.boundaries
      ensures RefsInBounds(h.boundaries[id], h.size)
    {
      assert RefsInBounds(g.boundaries[id], g.size);
    }
  }

  /** Changing only boundary state keeps the wiring. */
  lemma SameTopologyKeepsWired<G>(g: Grid<G>, h: Grid<G>)
    requires SameTopology(g, h)
    ensures Wired(g) ==> Wired(h)
  {
    if !Wired(g) {
      return;
    }
    assert Shaped(h);
    forall p, d | InBounds(p, h.size)
      ensures SlotOf(h, p, d) == SlotOf(g, p, d)
    {
    }
    forall p, d | InBounds(p, h.size)
      ensures SlotWired(h, p, d)
    {
      assert SlotWired(g, p, d);
    }
    assert Closed(h) by {
      forall id | id in h.boundaries
        ensures RefsInBounds(h.boundaries[id], h.size)
      {
        assert RefsInBounds(g.boundaries[id], g.size);
      }
    }
  }

  // ---------------------------------------------------------------------------
  // Generation

  /** The handle each slot receives: an outer wall on an outward-facing slot,
      otherwise the internal edge towards the neighbour. */
  function SlotHandle(n: int, p: Point, d: Direction): BoundaryId
  {
    match d
    case Up => if p.y == 0 then Outer(Up, p.x, p.y) else Inner(Horizontal, p.x, p.y - 1)
    case Right => if p.x == n - 1 then Outer(Right, p.x, p.y) else Inner(Vertical, p.x, p.y)
    case Down => if p.y == n - 1 then Outer(Down, p.x, p.y) else Inner(Horizontal, p.x, p.y)
    case Left => if p.x == 0 then Outer(Left, p.x, p.y) else Inner(Vertical, p.x - 1, p.y)
  }

  predicate IsHandle(n: int, id: BoundaryId)
  {
    match id
    case Inner(Vertical, x, y) => 0 <= x < n - 1 && 0 <= y < n
    case Inner(Horizontal, x, y) => 0 <= x < n && 0 <= y < n - 1
    case Outer(side, x, y) => InBounds(Point(x, y), n) && !InBounds(Neighbour(Point(x, y), side), n)
  }

  /** All boundaries of an n x n level. */
  function Handles(n: nat): set<BoundaryId>
  {
    (set x, y | 0 <= x < n - 1 && 0 <= y < n :: Inner(Vertical, x, y))
    + (set x, y | 0 <= x < n && 0 <= y < n - 1 :: Inner(Horizontal, x, y))
    + (set x, y | 0 <= x < n && y == 0 :: Outer(Up, x, y))
    + (set x, y | x == n - 1 && 0 <= y < n :: Outer(Right, x, y))
    + (set x, y | 0 <= x < n && y == n - 1 :: Outer(Down, x, y))
    + (set x, y | x == 0 && 0 <= y < n :: Outer(Left, x, y))
  }

  lemma HandlesExactly(n: nat)
    ensures forall id :: id in Handles(n) <==> IsHandle(n, id)
  {
    forall id | IsHandle(n, id)
      ensures id in Handles(n)
    {
      match id
      case Inner(Vertical, x, y) => assert id in (set x, y | 0 <= x < n - 1 && 0 <= y < n :: Inner(Vertical, x, y));
      case Inner(Horizontal, x, y) => assert id in (set x, y | 0 <= x < n && 0 <= y < n - 1 :: Inner(Horizontal, x, y));
      case Outer(Up, x, y) => assert id in (set x, y | 0 <= x < n && y == 0 :: Outer(Up, x, y));
      case Outer(Right, x, y) => assert id in (set x, y | x == n - 1 && 0 <= y < n :: Outer(Right, x, y));
      case Outer(Down, x, y) => assert id in (set x, y | 0 <= x < n && y == n - 1 :: Outer(Down, x, y));
      case Outer(Left, x, y) => assert id in (set x, y | x == 0 && 0 <= y < n :: Outer(Left, x, y));
    }
  }

  lemma RowMajorBound(a: int, b: int, w: int, h: int)
    requires 0 <= a < w && 0 <= b < h
    ensures 0 <= b * w + a < h * w
  {
    assert b * w <= (h - 1) * w;
  }

  /** Position of an internal edge in the order the generator is called: first
      the vertical edges row by row, then the horizontal edges row pair by row
      pair, each run left to right. */
  function InnerIndex(n: int, id: BoundaryId): (i: int)
    requires IsHandle(n, id) && id.Inner?
    ensures 0 <= i < InternalCount(n)
  {
    if id.position == Vertical then
      RowMajorBound(id.x, id.y, n - 1, n);
      id.y * (n - 1) + id.x
    else
      RowMajorBound(id.x, id.y, n, n - 1);
      n * (n - 1) + id.y * n + id.x
  }

  function EdgeAt<G>(n: int, inner: seq<G>, wall: G, id: BoundaryId): Boundary<G>
    requires IsHandle(n, id) && |inner| == InternalCount(n)
  {
    match id
    case Inner(Vertical, x, y) => Boundary(inner[InnerIndex(n, id)], Vertical, Some(Point(x, y)), Some(Point(x + 1, y)))
    case Inner(Horizontal, x, y) => Boundary(inner[InnerIndex(n, id)], Horizontal, Some(Point(x, y)), Some(Point(x, y + 1)))
    case Outer(side, x, y) => Boundary(wall, SlotPosition(side), Some(Point(x, y)), None)
  }

  function BuildRoom(n: int, p: Point): Room
  {
    Room(p, Some(SlotHandle(n, p, Up)), Some(SlotHandle(n, p, Right)),
         Some(SlotHandle(n, p, Down)), Some(SlotHandle(n, p, Left)))
  }

  /** `_generate`: `inner` holds the internal boundaries in the order the
      generator produced them, `wall` the state of a fresh outer wall. */
  function Build<G>(n: nat, inner: seq<G>, wall: G): Grid<G>
    requires |inner| == InternalCount(n)
  {
    HandlesExactly(n);
    Grid(n,
         seq(n, y requires 0 <= y < n => seq(n, x requires 0 <= x < n => BuildRoom(n, Point(x, y)))),
         map id | id in Handles(n) :: EdgeAt(n, inner, wall, id))
  }

  lemma BuildSlot<G>(n: nat, inner: seq<G>, wall: G, p: Point, d: Direction)
    requires |inner| == InternalCount(n) && InBounds(p, n)
    ensures Shaped(Build(n, inner, wall))
    ensures RoomAt(Build(n, inner, wall), p) == BuildRoom(n, p)
    ensures SlotOf(Build(n, inner, wall), p, d) == Some(SlotHandle(n, p, d))
  {
  }

  lemma BuildBoundary<G>(n: nat, inner: seq<G>, wall: G, id: BoundaryId)
    requires |inner| == InternalCount(n) && IsHandle(n, id)
    ensures id in Build(n, inner, wall).boundaries
    ensures Build(n, inner, wall).boundaries[id] == EdgeAt(n, inner, wall, id)
  {
    HandlesExactly(n);
  }

  /** The handle a slot receives is a boundary of the level, with that slot's
      position, pointing back at the room, shared with the facing slot. */
  lemma SlotHandleEdge<G>(n: nat, inner: seq<G>, wall: G, p: Point, d: Direction)
    requires |inner| == InternalCount(n) && InBounds(p, n)
    ensures IsHandle(n, SlotHandle(n, p, d))
    ensures var b := EdgeAt(n, inner, wall, SlotHandle(n, p, d));
      var q := Neighbour(p, d);
      && b.position == SlotPosition(d)
      && if InBounds(q, n) then
           && SlotHandle(n, q, Opposite(d)) == SlotHandle(n, p, d)
           && (if d == Right || d == Down
               then b.room1 == Some(p) && b.room2 == Some(q)
               else b.room1 == Some(q) && b.room2 == Some(p))
         else
           b.room1 == Some(p) && b.room2 == None
  {
  }

  lemma {:induction false} BuildSlotWired<G>(n: nat, inner: seq<G>, wall: G, p: Point, d: Direction)
    requires |inner| == InternalCount(n) && InBounds(p, n)
    ensures Shaped(Build(n, inner, wall)) && SlotWired(Build(n, inner, wall), p, d)
  {
    var g := Build(n, inner, wall);
    BuildSlot(n, inner, wall, p, d);
    SlotHandleEdge(n, inner, wall, p, d);
    BuildBoundary(n, inner, wall, SlotHandle(n, p, d));
    var q := Neighbour(p, d);
    if InBounds(q, n) {
      BuildSlot(n, inner, wall, q, Opposite(d));
    }
  }

  lemma {:induction false} BuildUnshared<G>(n: nat, inner: seq<G>, wall: G, p: Point, d: Direction, q: Point, e: Direction)
    requires |inner| == InternalCount(n) && InBounds(p, n) && InBounds(q, n)
    requires Shaped(Build(n, inner, wall))
    requires SlotOf(Build(n, inner, wall), p, d) == SlotOf(Build(n, inner, wall), q, e)
    ensures (p == q && d == e) || (q == Neighbour(p, d) && e == Opposite(d))
  {
    BuildSlot(n, inner, wall, p, d);
    BuildSlot(n, inner, wall, q, e);
    assert SlotHandle(n, p, d) == SlotHandle(n, q, e);
  }

  lemma BuildClosed<G>(n: nat, inner: seq<G>, wall: G)
    requires |inner| == InternalCount(n)
    ensures Closed(Build(n, inner, wall))
  {
    var g := Build(n, inner, wall);
    assert Shaped(g);
    forall p, d | InBounds(p, n) && SlotOf(g, p, d).Some?
      ensures SlotOf(g, p, d).value in g.boundaries
    {
      BuildSlot(n, inner, wall, p, d);
      SlotHandleEdge(n, inner, wall, p, d);
      BuildBoundary(n, inner, wall, SlotHandle(n, p, d));
    }
    forall id | id in g.boundaries
      ensures RefsInBounds(g.boundaries[id], n)
    {
      HandlesExactly(n);
      BuildBoundary(n, inner, wall, id);
    }
  }

  lemma BuildLocations<G>(n: nat, inner: seq<G>, wall: G)
    requires |inner| == InternalCount(n)
    ensures Shaped(Build(n, inner, wall))
    ensures forall p :: InBounds(p, n) ==> RoomAt(Build(n, inner, wall), p).location == p
  {
    forall p | InBounds(p, n)
      ensures RoomAt(Build(n, inner, wall), p).location == p
    {
      BuildSlot(n, inner, wall, p, Up);
    }
  }

  lemma BuildAllSlotsWired<G>(n: nat, inner: seq<G>, wall: G)
    requires |inner| == InternalCount(n)
    ensures Shaped(Build(n, inner, wall))
    ensures forall p, d :: InBounds(p, n) ==> SlotWired(Build(n, inner, wall), p, d)
  {
    forall p, d | InBounds(p, n)
      ensures SlotWired(Build(n, inner, wall), p, d)
    {
      BuildSlotWired(n, inner, wall, p, d);
    }
  }

  lemma BuildAllUnshared<G>(n: nat, inner: seq<G>, wall: G)
    requires |inner| == InternalCount(n)
    ensures Shaped(Build(n, inner, wall)) && Unshared(Build(n, inner, wall))
  {
    var g := Build(n, inner, wall);
    assert Shaped(g);
    forall p, d, q, e | InBounds(p, n) && InBounds(q, n) && SlotOf(g, p, d) == SlotOf(g, q, e)
      ensures (p == q && d == e) || (q == Neighbour(p, d) && e == Opposite(d))
    {
      BuildUnshared(n, inner, wall, p, d, q, e);
    }
  }

  /** The generated level satisfies the wiring invariant: locations match the
      matrix, every slot is filled, outward slots hold one-sided walls, and each
      internal edge is one boundary shared by its two rooms. */
  lemma {:induction false} BuildWired<G>(n: nat, inner: seq<G>, wall: G)
    requires |inner| == InternalCount(n)
    ensures Wired(Build(n, inner, wall))
  {
    BuildClosed(n, inner, wall);
    BuildLocations(n, inner, wall);
    BuildAllSlotsWired(n, inner, wall);
    BuildAllUnshared(n, inner, wall);
  }

  /** Outward slots hold a fresh outer wall; an internal edge holds the boundary
      the generator produced at that edge's turn. */
  lemma BuildGates<G>(n: nat, inner: seq<G>, wall: G, p: Point, d: Direction)
    requires |inner| == InternalCount(n) && InBounds(p, n)
    ensures Shaped(Build(n, inner, wall)) && SlotOf(Build(n, inner, wall), p, d).Some?
    ensures var id := SlotOf(Build(n, inner, wall), p, d).value;
      id in Build(n, inner, wall).boundaries
      && (!InBounds(Neighbour(p, d), n) ==> Build(n, inner, wall).boundaries[id].gate == wall)
      && (InBounds(Neighbour(p, d), n) ==>
            id.Inner? && IsHandle(n, id) && Build(n, inner, wall).boundaries[id].gate == inner[InnerIndex(n, id)])
  {
    BuildSlot(n, inner, wall, p, d);
  }
}

=== FILE: level.dfy ===
/** The current version of the maze (`src/model/level.py` with the character of
    `src/model/game_objects.py`).

    A boundary remembers the character that wants to pass it (`_character`);
    a room first hands the character to the boundary in the requested slot and
    then asks that boundary to move it. A Wall refuses, a Door swaps
    `room_1` and `room_2`, and a Portal is a Door that only lets the character
    through once its timer is up. */
module Level {
  import opened Maze
  import opened Grid
  import Timers
  import Generator

  /** The level's two characters, `character_1` and `character_2`. */
  datatype CharId = First | Second

  function Other(c: CharId): CharId
  {
    if c == First then Second else First
  }

  /** The state a boundary of this version carries besides its rooms and
      position: the pending character, and a Portal's own timer. */
  datatype Gate =
    | WallGate(pending: Option<CharId>)
    | DoorGate(pending: Option<CharId>)
    | PortalGate(pending: Option<CharId>, timer: Timers.Timer)

  function KindOf(gt: Gate): Kind
  {
    match gt
    case WallGate(_) => Wall
    case DoorGate(_) => Door
    case PortalGate(_, _) => Portal
  }

  /** The level: the grid plus the room of each character (None: `_room` is
      still unset). */
  datatype World = World(grid: Grid<Gate>, first: Option<Point>, second: Option<Point>)

  /** `character._room` */
  function RoomOf(w: World, c: CharId): Option<Point>
  {
    if c == First then w.first else w.second
  }

  /** Every reference in the level resolves: slots to boundaries, boundaries and
      characters to rooms of the grid. */
  ghost predicate Valid(w: World)
  {
    && Closed(w.grid)
    && (w.first.Some? ==> InBounds(w.first.value, w.grid.size))
    && (w.second.Some? ==> InBounds(w.second.value, w.grid.size))
  }

  function GateAt(w: World, b: BoundaryId): Gate
    requires b in w.grid.boundaries
  {
    w.grid.boundaries[b].gate
  }

  function SetGate(w: World, b: BoundaryId, gt: Gate): (r: World)
    requires b in w.grid.boundaries
    ensures r.first == w.first && r.second == w.second && SameTopology(w.grid, r.grid)
    ensures b in r.grid.boundaries && GateAt(r, b) == gt
    ensures forall id :: id in w.grid.boundaries && id != b ==> r.grid.boundaries[id] == w.grid.boundaries[id]
  {
    w.(grid := w.grid.(boundaries := w.grid.boundaries[b := w.grid.boundaries[b].(gate := gt)]))
  }

  /** Nothing changes but the state of boundary `b` and the room of character
      `c`; the boundary keeps its class. */
  ghost predicate TouchesOnly(w: World, r: World, b: BoundaryId, c: CharId)
    requires b in w.grid.boundaries
  {
    && SameTopology(w.grid, r.grid)
    && KindOf(GateAt(r, b)) == KindOf(GateAt(w, b))
    && (forall id :: id in w.grid.boundaries && id != b ==> r.grid.boundaries[id] == w.grid.boundaries[id])
    && RoomOf(r, Other(c)) == RoomOf(w, Other(c))
  }

  /** Two changes that each touch only `b` and `c` together touch only them. */
  lemma TouchesOnlyChain(w: World, m: World, r: World, b: BoundaryId, c: CharId)
    requires b in w.grid.boundaries && TouchesOnly(w, m, b, c)
    requires b in m.grid.boundaries && TouchesOnly(m, r, b, c)
    ensures TouchesOnly(w, r, b, c)
  {
  }

  // ---------------------------------------------------------------------------
  // Characters

  /** `Character.change_room`: only this character's room changes. */
  function ChangeRoom(w: World, c: CharId, p: Point): (r: World)
    ensures r.grid == w.grid && RoomOf(r, c) == Some(p) && RoomOf(r, Other(c)) == RoomOf(w, Other(c))
  {
    if c == First then w.(first := Some(p)) else w.(second := Some(p))
  }

  // ---------------------------------------------------------------------------
  // Boundaries

  /** `character_wants_to_pass`: records the pending character and nothing else;
      in particular a Portal keeps whatever charge its timer holds. */
  function WantsToPass(w: World, b: BoundaryId, c: CharId): (r: World)
    requires b in w.grid.boundaries
    ensures b in r.grid.boundaries && GateAt(r, b) == GateAt(w, b).(pending := Some(c))
    ensures r.grid.boundaries[b].room1 == w.grid.boundaries[b].room1
    ensures r.grid.boundaries[b].room2 == w.grid.boundaries[b].room2
    ensures r.first == w.first && r.second == w.second && SameTopology(w.grid, r.grid)
    ensures forall id :: id in w.grid.boundaries && id != b ==> r.grid.boundaries[id] == w.grid.boundaries[id]
  {
    SetGate(w, b, GateAt(w, b).(pending := Some(c)))
  }

  /** `character_is_gone`: forgets the pending character; a Portal also resets
      its timer. */
  function IsGone(w: World, b: BoundaryId): (r: World)
    requires b in w.grid.boundaries
    ensures b in r.grid.boundaries && GateAt(r, b).pending.None?
    ensures KindOf(GateAt(r, b)) == KindOf(GateAt(w, b))
    ensures GateAt(w, b).PortalGate? ==> GateAt(r, b).timer == Timers.Reset(GateAt(w, b).timer)
    ensures r.first == w.first && r.second == w.second && SameTopology(w.grid, r.grid)
    ensures forall id :: id in w.grid.boundaries && id != b ==> r.grid.boundaries[id] == w.grid.boundaries[id]
  {
    match GateAt(w, b)
    case WallGate(_) => SetGate(w, b, WallGate(None))
    case DoorGate(_) => SetGate(w, b, DoorGate(None))
    case PortalGate(_, t) => SetGate(w, b, PortalGate(None, Timers.Reset(t)))
  }

  /** The room a character ends in after a passage attempt that may take it
      across boundary `bd`. */
  function Landing(bd: Boundary<Gate>, at: Option<Point>): Option<Point>
  {
    if Across(bd, at).Some? then Across(bd, at) else at
  }

  lemma LandingIgnoresGate(bd: Boundary<Gate>, gt: Gate, at: Option<Point>)
    ensures Landing(bd.(gate := gt), at) == Landing(bd, at)
  {
  }

  /** `Door.move_character_to_another_room`, also run by a Portal whose timer is
      up: the pending character crosses to the other side when it stands on one
      side and the other side exists, then is forgotten. Without a pending
      character nothing happens. */
  function DoorMove(w: World, b: BoundaryId): (r: World)
    requires b in w.grid.boundaries
    ensures GateAt(w, b).pending.None? ==> r == w
    ensures GateAt(w, b).pending.Some? ==>
      var c := GateAt(w, b).pending.value;
      && TouchesOnly(w, r, b, c)
      && GateAt(r, b).pending.None?
      && (GateAt(w, b).PortalGate? ==> GateAt(r, b).timer == Timers.Reset(GateAt(w, b).timer))
      && RoomOf(r, c) == Landing(w.grid.boundaries[b], RoomOf(w, c))
  {
    var bd := w.grid.boundaries[b];
    match bd.gate.pending
    case None => w
    case Some(c) =>
      var moved := match Across(bd, RoomOf(w, c))
        case Some(q) => ChangeRoom(w, c, q)
        case None => w;
      IsGone(moved, b)
  }

  /** A Portal whose timer is up lets the pending character through as a Door
      would, then resets its timer again. */
  function PortalFire(w: World, b: BoundaryId): (r: World)
    requires b in w.grid.boundaries && GateAt(w, b).PortalGate? && GateAt(w, b).pending.Some?
    ensures b in r.grid.boundaries
    ensures TouchesOnly(w, r, b, GateAt(w, b).pending.value)
    ensures GateAt(r, b) == PortalGate(None, Timers.Reset(GateAt(w, b).timer))
    ensures RoomOf(r, GateAt(w, b).pending.value) == Landing(w.grid.boundaries[b], RoomOf(w, GateAt(w, b).pending.value))
  {
    var crossed := DoorMove(w, b);
    SetGate(crossed, b, PortalGate(None, Timers.Reset(GateAt(crossed, b).timer)))
  }

  /** A Portal with a pending character: an idle timer is started, and once
      it is up the character crosses as through a Door. */
  function PortalCharge(w: World, b: BoundaryId): (r: World)
    requires b in w.grid.boundaries && GateAt(w, b).PortalGate? && GateAt(w, b).pending.Some?
    ensures b in r.grid.boundaries && GateAt(r, b).PortalGate?
    ensures
      var c := GateAt(w, b).pending.value;
      var t := GateAt(w, b).timer;
      var started := if t.active then t else Timers.Start(t);
      && TouchesOnly(w, r, b, c)
      // still charging: the character waits, the timer runs
      && (!Timers.IsTimesUp(started) ==> RoomOf(r, c) == RoomOf(w, c) && GateAt(r, b) == PortalGate(Some(c), started))
      // charged: the character crosses as through a Door, and the portal is idle again
      && (Timers.IsTimesUp(started) ==>
            RoomOf(r, c) == Landing(w.grid.boundaries[b], RoomOf(w, c)) && GateAt(r, b) == PortalGate(None, Timers.Reset(t)))
  {
    var c := GateAt(w, b).pending.value;
    var t := GateAt(w, b).timer;
    var started := if !t.active then Timers.Start(t) else t;
    var charging := SetGate(w, b, PortalGate(Some(c), started));
    assert TouchesOnly(w, charging, b, c);
    if Timers.IsTimesUp(started) then
      var r := PortalFire(charging, b);
      TouchesOnlyChain(w, charging, r, b, c);
      assert charging.grid.boundaries[b] == w.grid.boundaries[b].(gate := PortalGate(Some(c), started));
      LandingIgnoresGate(w.grid.boundaries[b], PortalGate(Some(c), started), RoomOf(w, c));
      r
    else
      charging
  }

  /** `Portal.move_character_to_another_room`. */
  function PortalMove(w: World, b: BoundaryId): (r: World)
    requires b in w.grid.boundaries && GateAt(w, b).PortalGate?
    ensures b in r.grid.boundaries && GateAt(r, b).PortalGate?
    // with nobody pending, the only effect is a timer reset
    ensures GateAt(w, b).pending.None? ==>
      && r.first == w.first && r.second == w.second && GateAt(r, b) == PortalGate(None, Timers.Reset(GateAt(w, b).timer))
      && SameTopology(w.grid, r.grid)
      && forall id :: id in w.grid.boundaries && id != b ==> r.grid.boundaries[id] == w.grid.boundaries[id]
    ensures GateAt(w, b).pending.Some? ==>
      var c := GateAt(w, b).pending.value;
      var t := GateAt(w, b).timer;
      var started := if t.active then t else Timers.Start(t);
      && TouchesOnly(w, r, b, c)
      // still charging: the character waits, the timer runs
      && (!Timers.IsTimesUp(started) ==> RoomOf(r, c) == RoomOf(w, c) && GateAt(r, b) == PortalGate(Some(c), started))
      // charged: the character crosses as through a Door, and the portal is idle again
      && (Timers.IsTimesUp(started) ==>
            RoomOf(r, c) == Landing(w.grid.boundaries[b], RoomOf(w, c)) && GateAt(r, b) == PortalGate(None, Timers.Reset(t)))
  {
    match GateAt(w, b)
    case PortalGate(None, t) => SetGate(w, b, PortalGate(None, Timers.Reset(t)))
    case PortalGate(Some(_), _) => PortalCharge(w, b)
  }

  /** `move_character_to_another_room`, dispatched on the boundary class. The
      pending character either stays or crosses `b`; nobody else moves. */
  function Move(w: World, b: BoundaryId): (r: World)
    requires b in w.grid.boundaries
    ensures b in r.grid.boundaries && SameTopology(w.grid, r.grid)
    ensures GateAt(w, b).pending.Some? ==>
      var c := GateAt(w, b).pending.value;
      && TouchesOnly(w, r, b, c)
      && (RoomOf(r, c) == RoomOf(w, c) || RoomOf(r, c) == Across(w.grid.boundaries[b], RoomOf(w, c)))
    ensures GateAt(w, b).pending.None? ==>
      && r.first == w.first && r.second == w.second
      && forall id :: id in w.grid.boundaries && id != b ==> r.grid.boundaries[id] == w.grid.boundaries[id]
    // a Wall never moves anybody, and forgets who tried
    ensures GateAt(w, b).WallGate? ==> r.first == w.first && r.second == w.second && GateAt(r, b) == WallGate(None)
  {
    match GateAt(w, b)
    case WallGate(_) => IsGone(w, b)
    case DoorGate(_) => DoorMove(w, b)
    case PortalGate(_, _) => PortalMove(w, b)
  }

  /** A move keeps every reference of the level resolvable: a character that
      crosses lands in one of the two rooms of the boundary. */
  lemma {:induction false} MoveKeepsValid(w: World, b: BoundaryId)
    requires Valid(w) && b in w.grid.boundaries
    ensures Valid(Move(w, b))
  {
    var r := Move(w, b);
    var bd := w.grid.boundaries[b];
    forall c: CharId
      ensures RoomOf(r, c) == RoomOf(w, c) || RoomOf(r, c) == Across(bd, RoomOf(w, c))
    {
      if GateAt(w, b).pending.Some? && c == Other(GateAt(w, b).pending.value) {
        assert RoomOf(r, c) == RoomOf(w, c);
      }
    }
    CrossingKeepsValid(w, r, b);
  }

  /** A change of boundary state that leaves each character in place or takes
      it across boundary `b` keeps the level valid. */
  lemma CrossingKeepsValid(w: World, r: World, b: BoundaryId)
    requires Valid(w) && b in w.grid.boundaries && SameTopology(w.grid, r.grid)
    requires forall c: CharId :: RoomOf(r, c) == RoomOf(w, c) || RoomOf(r, c) == Across(w.grid.boundaries[b], RoomOf(w, c))
    ensures Valid(r)
  {
    var bd := w.grid.boundaries[b];
    SameTopologyKeepsClosed(w.grid, r.grid);
    assert RefsInBounds(bd, w.grid.size);
    AcrossNeedsBothSides(bd, w.first);
    AcrossNeedsBothSides(bd, w.second);
    assert RoomOf(r, First) == r.first && RoomOf(r, Second) == r.second;
  }

  /** An external `update()` of a Portal's timer (its caller is not part of
      this model). */
  function TickPortal(w: World, b: BoundaryId): (r: World)
    requires b in w.grid.boundaries && GateAt(w, b).PortalGate?
    ensures r.first == w.first && r.second == w.second && SameTopology(w.grid, r.grid) && b in r.grid.boundaries
    ensures GateAt(r, b) == GateAt(w, b).(timer := Timers.Update(GateAt(w, b).timer))
    ensures forall id :: id in w.grid.boundaries && id != b ==> r.grid.boundaries[id] == w.grid.boundaries[id]
  {
    SetGate(w, b, GateAt(w, b).(timer := Timers.Update(GateAt(w, b).timer)))
  }

  /** `k` external updates of a Portal's timer: only that timer changes, and
      it advances as the timer itself does over `k` updates. */
  function TickPortalTimes(w: World, b: BoundaryId, k: nat): (r: World)
    requires b in w.grid.boundaries && GateAt(w, b).PortalGate?
    ensures r.first == w.first && r.second == w.second && SameTopology(w.grid, r.grid) && b in r.grid.boundaries
    ensures GateAt(r, b) == GateAt(w, b).(timer := Timers.Ticks(GateAt(w, b).timer, k))
    ensures forall id :: id in w.grid.boundaries && id != b ==> r.grid.boundaries[id] == w.grid.boundaries[id]
    ensures Valid(w) ==> Valid(r)
    ensures Wired(w.grid) ==> Wired(r.grid)
  {
    var r := if k == 0 then w else TickPortal(TickPortalTimes(w, b, k - 1), b);
    SameTopologyKeepsClosed(w.grid, r.grid);
    SameTopologyKeepsWired(w.grid, r.grid);
    r
  }

  /** A request followed by a move of the same boundary touches nothing but
      that boundary and the requesting character. */
  lemma TouchesOnlyAfterRequest(w: World, b: BoundaryId, c: CharId, r: World)
    requires b in w.grid.boundaries && r == Move(WantsToPass(w, b, c), b)
    ensures TouchesOnly(w, r, b, c)
    ensures RoomOf(r, c) == RoomOf(w, c) || RoomOf(r, c) == Across(w.grid.boundaries[b], RoomOf(w, c))
  {
    var w1 := WantsToPass(w, b, c);
    assert TouchesOnly(w1, r, b, c);
    assert Across(w1.grid.boundaries[b], RoomOf(w, c)) == Across(w.grid.boundaries[b], RoomOf(w, c));
  }

  // ---------------------------------------------------------------------------
  // Rooms and characters

  /** `Room.try_to_release_character_<d>`: an empty slot does nothing; otherwise
      the boundary in that slot gets `c` as its pending character and is asked
      to move it. No other slot is touched, and what happens to `c` depends on
      the class of that boundary: a Wall holds it back, a Door lets it land on
      the other side, and a Portal holds it while charging and lets it through
      once its timer is up. */
  function Release(w: World, p: Point, d: Direction, c: CharId): (r: World)
    requires Closed(w.grid) && InBounds(p, w.grid.size)
    ensures SlotOf(w.grid, p, d).None? ==> r == w
    ensures SlotOf(w.grid, p, d).Some? ==>
      var b := SlotOf(w.grid, p, d).value;
      && b in w.grid.boundaries && TouchesOnly(w, r, b, c)
      && (RoomOf(r, c) == RoomOf(w, c) || RoomOf(r, c) == Across(w.grid.boundaries[b], RoomOf(w, c)))
    // a Wall keeps the character and forgets it
    ensures SlotOf(w.grid, p, d).Some? && SlotOf(w.grid, p, d).value in w.grid.boundaries ==>
      var b := SlotOf(w.grid, p, d).value;
      GateAt(w, b).WallGate? ==> RoomOf(r, c) == RoomOf(w, c) && GateAt(r, b) == WallGate(None)
    // a Door lets the character land on its other side
    ensures SlotOf(w.grid, p, d).Some? && SlotOf(w.grid, p, d).value in w.grid.boundaries ==>
      var b := SlotOf(w.grid, p, d).value;
      GateAt(w, b).DoorGate? ==>
        RoomOf(r, c) == Landing(w.grid.boundaries[b], RoomOf(w, c)) && GateAt(r, b) == DoorGate(None)
    // a Portal holds the character until its started timer is up, then lets it through
    ensures SlotOf(w.grid, p, d).Some? && SlotOf(w.grid, p, d).value in w.grid.boundaries ==>
      var b := SlotOf(w.grid, p, d).value;
      GateAt(w, b).PortalGate? ==>
        var t := GateAt(w, b).timer;
        var started := if t.active then t else Timers.Start(t);
        && (!Timers.IsTimesUp(started) ==> RoomOf(r, c) == RoomOf(w, c) && GateAt(r, b) == PortalGate(Some(c), started))
        && (Timers.IsTimesUp(started) ==>
              RoomOf(r, c) == Landing(w.grid.boundaries[b], RoomOf(w, c)) && GateAt(r, b) == PortalGate(None, Timers.Reset(t)))
  {
    match SlotOf(w.grid, p, d)
    case None => w
    case Some(b) =>
      var r := Move(WantsToPass(w, b, c), b);
      TouchesOnlyAfterRequest(w, b, c, r);
      match GateAt(w, b)
      case WallGate(_) => RequestWall(w, b, c); r
      case DoorGate(_) => RequestDoor(w, b, c); r
      case PortalGate(_, t) =>
        if Timers.IsTimesUp(if t.active then t else Timers.Start(t)) then
          RequestPortalFires(w, b, c); r
        else
          RequestPortalCharging(w, b, c); r
  }

  /** `Character.try_to_go_<d>`: a character without a room stays put; otherwise
      its current room is asked to release it in direction `d`. The level stays
      valid and keeps its wiring, and the other character never moves. */
  function TryToGo(w: World, c: CharId, d: Direction): (r: World)
    requires Valid(w)
    ensures Valid(r) && SameTopology(w.grid, r.grid)
    ensures Wired(w.grid) ==> Wired(r.grid)
    ensures RoomOf(r, Other(c)) == RoomOf(w, Other(c))
    ensures RoomOf(w, c).None? ==> r == w
    ensures RoomOf(w, c).Some? ==> InBounds(RoomOf(w, c).value, w.grid.size) && r == Release(w, RoomOf(w, c).value, d, c)
    ensures RoomOf(w, c).Some? && SlotOf(w.grid, RoomOf(w, c).value, d).None? ==> r == w
    ensures RoomOf(w, c).Some? && SlotOf(w.grid, RoomOf(w, c).value, d).Some? ==>
      var b := SlotOf(w.grid, RoomOf(w, c).value, d).value;
      b in w.grid.boundaries && TouchesOnly(w, r, b, c)
  {
    match RoomOf(w, c)
    case None => w
    case Some(p) =>
      assert InBounds(p, w.grid.size);
      var r := Release(w, p, d, c);
      match SlotOf(w.grid, p, d)
      case None => r
      case Some(b) =>
        ReleaseKeepsValid(w, c, r, b);
        SameTopologyKeepsWired(w.grid, r.grid);
        r
  }

  /** A release through slot boundary `b` keeps the level valid. */
  lemma ReleaseKeepsValid(w: World, c: CharId, r: World, b: BoundaryId)
    requires Valid(w) && b in w.grid.boundaries && TouchesOnly(w, r, b, c)
    requires RoomOf(r, c) == RoomOf(w, c) || RoomOf(r, c) == Across(w.grid.boundaries[b], RoomOf(w, c))
    ensures Valid(r)
  {
    forall c': CharId
      ensures RoomOf(r, c') == RoomOf(w, c') || RoomOf(r, c') == Across(w.grid.boundaries[b], RoomOf(w, c'))
    {
      if c' != c {
        assert c' == Other(c);
      }
    }
    CrossingKeepsValid(w, r, b);
  }

  // ---------------------------------------------------------------------------
  // Passage

  /** A Door is its own inverse: a character on either side of a two-sided door
      crosses, and a second attempt brings it back; the other character never
      moves. */
  lemma {:induction false} DoorRoundTrip(w: World, b: BoundaryId, c: CharId)
    requires b in w.grid.boundaries && GateAt(w, b).DoorGate?
    requires var bd := w.grid.boundaries[b];
      bd.room1.Some? && bd.room2.Some? && bd.room1 != bd.room2 && (RoomOf(w, c) == bd.room1 || RoomOf(w, c) == bd.room2)
    ensures var w1 := Move(WantsToPass(w, b, c), b);
      && RoomOf(w1, c) != RoomOf(w, c)
      && var w2 := Move(WantsToPass(w1, b, c), b);
         w2.first == w.first && w2.second == w.second
  {
    var bd := w.grid.boundaries[b];
    AcrossSwaps(bd);
    var w0 := WantsToPass(w, b, c);
    assert GateAt(w0, b) == DoorGate(Some(c));
    var w1 := Move(w0, b);
    assert w1.grid.boundaries[b].room1 == bd.room1 && w1.grid.boundaries[b].room2 == bd.room2;
    assert RoomOf(w1, c) == Across(bd, RoomOf(w, c));
    assert GateAt(w1, b).DoorGate?;
    var w2 := Move(WantsToPass(w1, b, c), b);
    assert RoomOf(w2, c) == RoomOf(w, c);
  }

  /** An attempt through a filled slot is a passage request to the boundary in
      that slot followed by its move. */
  lemma AttemptIsMove(w: World, c: CharId, d: Direction, b: BoundaryId)
    requires Valid(w) && RoomOf(w, c).Some? && SlotOf(w.grid, RoomOf(w, c).value, d) == Some(b)
    ensures b in w.grid.boundaries && TryToGo(w, c, d) == Move(WantsToPass(w, b, c), b)
  {
    assert InBounds(RoomOf(w, c).value, w.grid.size);
  }

  /** A request at a Wall keeps the character where it is. */
  lemma RequestWall(w: World, b: BoundaryId, c: CharId)
    requires b in w.grid.boundaries && GateAt(w, b).WallGate?
    ensures var r := Move(WantsToPass(w, b, c), b);
      RoomOf(r, c) == RoomOf(w, c) && GateAt(r, b) == WallGate(None)
  {
    assert GateAt(WantsToPass(w, b, c), b).WallGate?;
  }

  /** A request at a Door lands the character as `Landing` says. */
  lemma RequestDoor(w: World, b: BoundaryId, c: CharId)
    requires b in w.grid.boundaries && GateAt(w, b).DoorGate?
    ensures var r := Move(WantsToPass(w, b, c), b);
      RoomOf(r, c) == Landing(w.grid.boundaries[b], RoomOf(w, c)) && GateAt(r, b) == DoorGate(None)
  {
    var w1 := WantsToPass(w, b, c);
    assert GateAt(w1, b) == DoorGate(Some(c));
    assert Landing(w1.grid.boundaries[b], RoomOf(w, c)) == Landing(w.grid.boundaries[b], RoomOf(w, c));
  }

  /** A request at a Portal whose started timer is not up yet leaves the
      character where it is, pending at the charging portal. */
  lemma RequestPortalCharging(w: World, b: BoundaryId, c: CharId)
    requires b in w.grid.boundaries && GateAt(w, b).PortalGate?
    requires var t := GateAt(w, b).timer; !Timers.IsTimesUp(if t.active then t else Timers.Start(t))
    ensures var t := GateAt(w, b).timer;
      var r := Move(WantsToPass(w, b, c), b);
      RoomOf(r, c) == RoomOf(w, c) && GateAt(r, b) == PortalGate(Some(c), if t.active then t else Timers.Start(t))
  {
    var w1 := WantsToPass(w, b, c);
    assert GateAt(w1, b) == PortalGate(Some(c), GateAt(w, b).timer);
  }

  /** A request at a Portal whose started timer is up takes the character
      across as a Door would, and leaves the portal idle. */
  lemma RequestPortalFires(w: World, b: BoundaryId, c: CharId)
    requires b in w.grid.boundaries && GateAt(w, b).PortalGate?
    requires var t := GateAt(w, b).timer; Timers.IsTimesUp(if t.active then t else Timers.Start(t))
    ensures var r := Move(WantsToPass(w, b, c), b);
      RoomOf(r, c) == Landing(w.grid.boundaries[b], RoomOf(w, c))
      && GateAt(r, b) == PortalGate(None, Timers.Reset(GateAt(w, b).timer))
  {
    var w1 := WantsToPass(w, b, c);
    assert GateAt(w1, b) == PortalGate(Some(c), GateAt(w, b).timer);
    assert Landing(w1.grid.boundaries[b], RoomOf(w, c)) == Landing(w.grid.boundaries[b], RoomOf(w, c));
  }

  /** Going in direction `d` in a wired level: an outward-facing slot or a
      Wall keeps the character in its room, and a Door takes it to the
      neighbouring room in direction `d`. */
  lemma {:induction false} Step(w: World, c: CharId, d: Direction, b: BoundaryId)
    requires Valid(w) && Wired(w.grid) && RoomOf(w, c).Some?
    requires SlotOf(w.grid, RoomOf(w, c).value, d) == Some(b)
    ensures b in w.grid.boundaries
    ensures var p := RoomOf(w, c).value;
      var r := TryToGo(w, c, d);
      && (!InBounds(Neighbour(p, d), w.grid.size) || GateAt(w, b).WallGate? ==> RoomOf(r, c) == Some(p))
      && (InBounds(Neighbour(p, d), w.grid.size) && GateAt(w, b).DoorGate? ==> RoomOf(r, c) == Some(Neighbour(p, d)))
  {
    SlotCrossing(w.grid, RoomOf(w, c).value, d);
    AttemptIsMove(w, c, d, b);
    match GateAt(w, b)
    case WallGate(_) => RequestWall(w, b, c);
    case DoorGate(_) => RequestDoor(w, b, c);
    case PortalGate(_, t) =>
      if Timers.IsTimesUp(if t.active then t else Timers.Start(t)) {
        RequestPortalFires(w, b, c);
      } else {
        RequestPortalCharging(w, b, c);
      }
  }

  /** Going in direction `d` towards a neighbouring room through a Portal: the
      character crosses exactly when the portal's started timer is up, and
      otherwise waits with the portal charging. */
  lemma {:induction false} StepThroughPortal(w: World, c: CharId, d: Direction, b: BoundaryId)
    requires Valid(w) && Wired(w.grid) && RoomOf(w, c).Some?
    requires InBounds(Neighbour(RoomOf(w, c).value, d), w.grid.size)
    requires SlotOf(w.grid, RoomOf(w, c).value, d) == Some(b) && b in w.grid.boundaries && GateAt(w, b).PortalGate?
    ensures var p := RoomOf(w, c).value;
      var t := GateAt(w, b).timer;
      var started := if t.active then t else Timers.Start(t);
      var r := TryToGo(w, c, d);
      && b in r.grid.boundaries
      && (Timers.IsTimesUp(started) ==> RoomOf(r, c) == Some(Neighbour(p, d)) && GateAt(r, b) == PortalGate(None, Timers.Reset(t)))
      && (!Timers.IsTimesUp(started) ==> RoomOf(r, c) == Some(p) && GateAt(r, b) == PortalGate(Some(c), started))
  {
    var p := RoomOf(w, c).value;
    SlotCrossing(w.grid, p, d);
    AttemptIsMove(w, c, d, b);
    var t := GateAt(w, b).timer;
    if Timers.IsTimesUp(if t.active then t else Timers.Start(t)) {
      RequestPortalFires(w, b, c);
    } else {
      RequestPortalCharging(w, b, c);
    }
  }

  /** A Portal has to be charged: a character's first attempt at an idle
      portal only starts the timer, and after `k` external updates its next
      attempt takes it across exactly when `k` reaches the timer's duration.
      Attempts themselves do not advance the timer. */
  lemma {:induction false} PortalNeedsCharge(w: World, c: CharId, d: Direction, b: BoundaryId, duration: nat, k: nat)
    requires Valid(w) && Wired(w.grid) && RoomOf(w, c).Some?
    requires InBounds(Neighbour(RoomOf(w, c).value, d), w.grid.size)
    requires SlotOf(w.grid, RoomOf(w, c).value, d) == Some(b) && b in w.grid.boundaries
    requires GateAt(w, b) == PortalGate(None, Timers.New(duration)) && duration > 0
    ensures var w1 := TryToGo(w, c, d);
      && RoomOf(w1, c) == RoomOf(w, c)
      && b in w1.grid.boundaries && GateAt(w1, b).PortalGate?
      && var w2 := TickPortalTimes(w1, b, k);
         RoomOf(TryToGo(w2, c, d), c) == if k >= duration then Some(Neighbour(RoomOf(w, c).value, d)) else RoomOf(w, c)
  {
    var p := RoomOf(w, c).value;
    StepThroughPortal(w, c, d, b);
    var w1 := TryToGo(w, c, d);
    var w2 := TickPortalTimes(w1, b, k);
    assert SlotOf(w2.grid, p, d) == SlotOf(w.grid, p, d);
    assert GateAt(w2, b).timer == Timers.Ticks(Timers.Start(Timers.New(duration)), k);
    Timers.ChargeNeedsEndTicks(duration, k);
    StepThroughPortal(w2, c, d, b);
  }

  /** Leaving through another slot of the same room does not touch the
      boundary in slot `d`: in a wired level two slots of one room never hold
      the same boundary. */
  lemma {:induction false} DepartureKeepsGate(w: World, c: CharId, d: Direction, d2: Direction, b: BoundaryId)
    requires Valid(w) && Wired(w.grid) && RoomOf(w, c).Some? && d2 != d
    requires SlotOf(w.grid, RoomOf(w, c).value, d) == Some(b) && b in w.grid.boundaries
    ensures var r := TryToGo(w, c, d2);
      && b in r.grid.boundaries && GateAt(r, b) == GateAt(w, b)
      && RoomOf(r, Other(c)) == RoomOf(w, Other(c))
  {
    var p := RoomOf(w, c).value;
    var s := SlotOf(w.grid, p, d2);
    assert SlotWired(w.grid, p, d2);
    NeighbourOpposite(p, d);
    assert s != Some(b);
  }

  /** Nothing resets a Portal's charge when the character that built it gives
      up and walks off through another slot: the other character, standing in
      the room beyond and trying the portal from its side once the charge is
      complete, crosses into the room the charge was built from at its very
      first attempt. */
  lemma {:induction false} ChargeOutlivesCharacter(w: World, c: CharId, d: Direction, d2: Direction, b: BoundaryId, duration: nat, k: nat)
    requires Valid(w) && Wired(w.grid) && RoomOf(w, c).Some? && d2 != d
    requires InBounds(Neighbour(RoomOf(w, c).value, d), w.grid.size)
    requires RoomOf(w, Other(c)) == Some(Neighbour(RoomOf(w, c).value, d))
    requires SlotOf(w.grid, RoomOf(w, c).value, d) == Some(b) && b in w.grid.boundaries
    requires GateAt(w, b) == PortalGate(None, Timers.New(duration)) && 0 < duration <= k
    ensures var w1 := TryToGo(w, c, d);
      && RoomOf(w1, c) == RoomOf(w, c)
      && var w2 := TryToGo(w1, c, d2);
         && b in w2.grid.boundaries && GateAt(w2, b) == PortalGate(Some(c), Timers.Start(Timers.New(duration)))
         && var w3 := TickPortalTimes(w2, b, k);
            RoomOf(TryToGo(w3, Other(c), Opposite(d)), Other(c)) == RoomOf(w, c)
  {
    var p := RoomOf(w, c).value;
    var q := Neighbour(p, d);
    StepThroughPortal(w, c, d, b);
    var w1 := TryToGo(w, c, d);
    assert SlotOf(w1.grid, p, d) == Some(b);
    DepartureKeepsGate(w1, c, d, d2, b);
    var w2 := TryToGo(w1, c, d2);
    var w3 := TickPortalTimes(w2, b, k);
    SlotCrossing(w.grid, p, d);
    NeighbourOpposite(p, d);
    assert RoomOf(w3, Other(c)) == Some(q);
    assert SlotOf(w3.grid, q, Opposite(d)) == Some(b);
    assert GateAt(w3, b).timer == Timers.Ticks(Timers.Start(Timers.New(duration)), k);
    Timers.ChargeNeedsEndTicks(duration, k);
    StepThroughPortal(w3, Other(c), Opposite(d), b);
  }

  // ---------------------------------------------------------------------------
  // Generating a level

  /** `Timer(amount_of_time=2)`: the timer every generated Portal gets. */
  const PortalTime: nat := 2

  /** A boundary as the generator creates it: of the drawn class, nobody
      pending, and a Portal's timer idle. */
  function Fresh(k: Kind): (gt: Gate)
    ensures KindOf(gt) == k && gt.pending.None?
    ensures gt.PortalGate? ==> gt.timer == Timers.New(PortalTime)
  {
    match k
    case Wall => WallGate(None)
    case Door => DoorGate(None)
    case Portal => PortalGate(None, Timers.New(PortalTime))
  }

  /** `Level.__init__`: the grid with fresh boundaries of the drawn classes
      inside and one-sided Walls outside; then `character_1` and `character_2`
      change into the rooms `rooms[row][col]` of the two random picks, given as
      (row, col) pairs. */
  function NewLevel(n: nat, draws: seq<Kind>, pick1: (nat, nat), pick2: (nat, nat)): (r: Option<World>)
    requires n >= 1 && pick1.0 < n && pick1.1 < n && pick2.0 < n && pick2.1 < n
    ensures r.Some? <==> Generator.DrawKinds(n, draws).Some?
    ensures r.Some? ==> Valid(r.value) && Wired(r.value.grid) && r.value.grid.size == n
    // `rooms[row][col]` is the room at x = col, y = row
    ensures r.Some? ==> r.value.first == Some(Point(pick1.1, pick1.0)) && r.value.second == Some(Point(pick2.1, pick2.0))
  {
    match Generator.DrawKinds(n, draws)
    case None => None
    case Some(ks) =>
      var inner := seq(|ks|, i requires 0 <= i < |ks| => Fresh(ks[i]));
      var g := Build(n, inner, WallGate(None));
      BuildWired(n, inner, WallGate(None));
      var empty := World(g, None, None);
      var w1 := ChangeRoom(empty, First, g.rooms[pick1.0][pick1.1].location);
      var w2 := ChangeRoom(w1, Second, g.rooms[pick2.0][pick2.1].location);
      assert RoomAt(g, Point(pick1.1, pick1.0)).location == Point(pick1.1, pick1.0);
      assert RoomAt(g, Point(pick2.1, pick2.0)).location == Point(pick2.1, pick2.0);
      Some(w2)
  }

  /** In a new level every outward-facing slot holds an idle Wall, and every
      internal edge a fresh boundary of the class drawn at that edge's turn. */
  lemma NewLevelGates(n: nat, draws: seq<Kind>, pick1: (nat, nat), pick2: (nat, nat), p: Point, d: Direction)
    requires n >= 1 && pick1.0 < n && pick1.1 < n && pick2.0 < n && pick2.1 < n
    requires NewLevel(n, draws, pick1, pick2).Some? && InBounds(p, n)
    ensures var w := NewLevel(n, draws, pick1, pick2).value;
      var s := SlotOf(w.grid, p, d);
      && s.Some? && s.value in w.grid.boundaries
      && (!InBounds(Neighbour(p, d), n) ==> GateAt(w, s.value) == WallGate(None))
      && (InBounds(Neighbour(p, d), n) ==>
            s.value.Inner? && IsHandle(n, s.value)
            && GateAt(w, s.value) == Fresh(Generator.DrawKinds(n, draws).value[InnerIndex(n, s.value)]))
  {
    var ks := Generator.DrawKinds(n, draws).value;
    var inner := seq(|ks|, i requires 0 <= i < |ks| => Fresh(ks[i]));
    BuildGates(n, inner, WallGate(None), p, d);
  }

  // ---------------------------------------------------------------------------
  // Finding a character

  /** `get_character_from_room`: `character_1` is asked first, so it is the
      one found when both share the room. */
  function GetCharacterFromRoom(w: World, room: Point): (r: Option<CharId>)
    ensures r.Some? ==> RoomOf(w, r.value) == Some(room)
    ensures r.None? <==> w.first != Some(room) && w.second != Some(room)
    ensures r == Some(Second) ==> w.first != Some(room)
  {
    if w.first == Some(room) then Some(First)
    else if w.second == Some(room) then Some(Second)
    else None
  }

  /** Looking up the room of a placed character finds a character there, and
      finds that very character unless it is `character_2` sharing its room
      with `character_1`. */
  lemma LookupFindsOccupant(w: World, c: CharId)
    requires RoomOf(w, c).Some?
    ensures GetCharacterFromRoom(w, RoomOf(w, c).value).Some?
    ensures GetCharacterFromRoom(w, RoomOf(w, c).value) == Some(c) <==> c == First || w.first != w.second
  {
  }

  /** Right after generation, the lookup finds `character_1` in its room,
      `character_2` in its room unless both picks coincide, and nobody in any
      other room. */
  lemma PlacedCharactersAreFound(n: nat, draws: seq<Kind>, pick1: (nat, nat), pick2: (nat, nat))
    requires n >= 1 && pick1.0 < n && pick1.1 < n && pick2.0 < n && pick2.1 < n
    requires NewLevel(n, draws, pick1, pick2).Some?
    ensures var w := NewLevel(n, draws, pick1, pick2).value;
      && GetCharacterFromRoom(w, Point(pick1.1, pick1.0)) == Some(First)
      && (GetCharacterFromRoom(w, Point(pick2.1, pick2.0)) == Some(Second) <==> pick1 != pick2)
      && forall p :: p != Point(pick1.1, pick1.0) && p != Point(pick2.1, pick2.0) ==> GetCharacterFromRoom(w, p).None?
  {
    var w := NewLevel(n, draws, pick1, pick2).value;
    LookupFindsOccupant(w, First);
    LookupFindsOccupant(w, Second);
  }
}

=== FILE: maze.dfy ===
/** Shared vocabulary of the maze: grid points, directions, boundary kinds and
    positions, room records with their four boundary slots, and the boundary
    record that joins (at most) two rooms.

    Rooms are addressed by their location; boundaries live in an arena keyed by
    a handle, so that two neighbouring rooms can hold the SAME boundary. */
module Maze {

  datatype Option<+T> = None | Some(value: T)

  /** Grid coordinates; no bounds are implied by the type itself. */
  datatype Point = Point(x: int, y: int)

  datatype Direction = Up | Right | Down | Left

  /** `BoundaryPosition`: only used for display. */
  datatype Position = Horizontal | Vertical

  /** The three boundary classes. */
  datatype Kind = Wall | Door | Portal

  /** Arena handle of a boundary. `Inner(Vertical, x, y)` separates (x, y) from
      (x + 1, y); `Inner(Horizontal, x, y)` separates (x, y) from (x, y + 1);
      `Outer(side, x, y)` is the one-sided wall on that side of room (x, y). */
  datatype BoundaryId = Inner(position: Position, x: int, y: int) | Outer(side: Direction, x: int, y: int)

  /** A room: its location and the four boundary slots (None = no boundary yet). */
  datatype Room = Room(location: Point, up: Option<BoundaryId>, right: Option<BoundaryId>,
                       down: Option<BoundaryId>, left: Option<BoundaryId>)

  /** A boundary: its variant-specific state `gate`, the display position and the
      two rooms it separates (`room2` is absent for a one-sided outer wall). */
  datatype Boundary<+G> = Boundary(gate: G, position: Position, room1: Option<Point>, room2: Option<Point>)

  function Slot(r: Room, d: Direction): Option<BoundaryId>
  {
    match d
    case Up => r.up
    case Right => r.right
    case Down => r.down
    case Left => r.left
  }

  /** Where a Door sends a character standing in `at`: to `room2` from `room1`,
      to `room1` from `room2`, provided that other side exists. None means the
      character stays where it is. Rooms are compared by identity, so a
      character without a room counts as standing on a missing side. */
  function Across<G>(b: Boundary<G>, at: Option<Point>): Option<Point>
  {
    if at == b.room1 && b.room2.Some? then b.room2
    else if at == b.room2 && b.room1.Some? then b.room1
    else None
  }

  /** A two-sided door is its own inverse: from either room it leads to the
      other one, and crossing twice leads back. */
  lemma AcrossSwaps<G>(b: Boundary<G>)
    requires b.room1.Some? && b.room2.Some? && b.room1 != b.room2
    ensures Across(b, b.room1) == b.room2 && Across(b, b.room2) == b.room1
    ensures Across(b, Across(b, b.room1)) == b.room1 && Across(b, Across(b, b.room2)) == b.room2
  {
  }

  /** Only a character standing on one side can cross, and a one-sided boundary
      never lets a character that has a room through. */
  lemma AcrossNeedsBothSides<G>(b: Boundary<G>, at: Option<Point>)
    ensures Across(b, at).Some? ==> at == b.room1 || at == b.room2
    ensures Across(b, at).Some? && at.Some? ==> b.room1.Some? && b.room2.Some?
    ensures Across(b, at).Some? ==> Across(b, at) == b.room1 || Across(b, at) == b.room2
    ensures at.Some? && (b.room1.None? || b.room2.None?) ==> Across(b, at).None?
  {
  }

  /** Up and down slots hold horizontal boundaries, left and right slots vertical ones. */
  function SlotPosition(d: Direction): Position
  {
    if d == Up || d == Down then Horizontal else Vertical
  }

  function Opposite(d: Direction): Direction
  {
    match d
    case Up => Down
    case Right => Left
    case Down => Up
    case Left => Right
  }

  /** The location one step away in direction `d` (y grows downwards). */
  function Neighbour(p: Point, d: Direction): Point
  {
    match d
    case Up => Point(p.x, p.y - 1)
    case Right => Point(p.x + 1, p.y)
    case Down => Point(p.x, p.y + 1)
    case Left => Point(p.x - 1, p.y)
  }

  predicate InBounds(p: Point, n: int)
  {
    0 <= p.x < n && 0 <= p.y < n
  }

  /** `_calculate_internal_boundaries_amount`: n*(n-1) vertical plus n*(n-1)
      horizontal internal edges. */
  function InternalCount(n: int): int
  {
    n * (n - 1) + n * (n - 1)
  }

  /** The counts the unit tests expect for levels of size 1, 2, 3 and 10. */
  lemma InternalCountExamples()
    ensures InternalCount(1) == 0 && InternalCount(2) == 4 && InternalCount(3) == 12 && InternalCount(10) == 180
    ensures forall n: nat :: InternalCount(n) == 2 * n * (n - 1) && InternalCount(n) >= 0
  {
  }

  function CountWalls(ks: seq<Kind>): (c: nat)
    ensures c <= |ks|
  {
    if |ks| == 0 then 0 else (if ks[0] == Wall then 1 else 0) + CountWalls(ks[1..])
  }

  /** Stepping to a neighbour and back returns to the start. */
  lemma NeighbourOpposite(p: Point, d: Direction)
    ensures Neighbour(Neighbour(p, d), Opposite(d)) == p
    ensures Neighbour(p, d) != p
  {
  }
}

=== FILE: prototype.dfy ===
/** The first version of the maze (`model.py`): the same grid as the later
    versions, but a generator without any cap on walls and a level without
    characters. */
module Prototype {
  import opened Maze
  import opened Grid
  import opened Stateless
  import Generator

  /** `BoundaryGenerator.get_boundary` of this version accepts every draw, so
      the internal boundaries take the first draws in call order; too few draws
      yield None. */
  function DrawKinds(n: nat, draws: seq<Kind>): (r: Option<seq<Kind>>)
    ensures r.Some? <==> InternalCount(n) <= |draws|
    ensures r.Some? ==> |r.value| == InternalCount(n) && forall i :: 0 <= i < |r.value| ==> r.value[i] == draws[i]
  {
    if |draws| < InternalCount(n) then None else Some(draws[..InternalCount(n)])
  }

  /** `Level.__init__` of this version: the wired grid, outward Walls, the
      drawn classes inside. */
  function NewLevel(n: nat, draws: seq<Kind>): (r: Option<Board>)
    ensures r.Some? <==> InternalCount(n) <= |draws|
    ensures r.Some? ==> Wired(r.value) && r.value.size == n
  {
    match DrawKinds(n, draws)
    case None => None
    case Some(ks) =>
      BuildWired(n, ks, Wall);
      Some(Build(n, ks, Wall))
  }

  /** Every outward slot holds a Wall, and every internal edge the draw made at
      that edge's turn. */
  lemma NewLevelGates(n: nat, draws: seq<Kind>, p: Point, d: Direction)
    requires NewLevel(n, draws).Some? && InBounds(p, n)
    ensures var g := NewLevel(n, draws).value;
      var s := SlotOf(g, p, d);
      && s.Some? && s.value in g.boundaries
      && (!InBounds(Neighbour(p, d), n) ==> g.boundaries[s.value].gate == Wall)
      && (InBounds(Neighbour(p, d), n) ==>
            s.value.Inner? && IsHandle(n, s.value) && g.boundaries[s.value].gate == draws[InnerIndex(n, s.value)])
  {
    BuildGates(n, DrawKinds(n, draws).value, Wall, p, d);
  }

  /** Where no Wall is drawn the cap never acts, and the capped generator of
      the later versions builds the same classes as this one. */
  lemma CapIdleWithoutWalls(n: nat, draws: seq<Kind>)
    requires InternalCount(n) <= |draws| && forall i :: 0 <= i < InternalCount(n) ==> draws[i] != Wall
    ensures Generator.DrawKinds(n, draws) == DrawKinds(n, draws)
  {
    if InternalCount(n) > 0 {
      Generator.WallFreeDrawsAccepted(Generator.New(n), draws, InternalCount(n));
    }
  }

  /** Without the cap every internal boundary of a 2 x 2 level may be a Wall,
      shutting each room in; the capped generator of the later versions refuses
      the second Wall and, given nothing but Walls, never finishes. */
  lemma UncappedAdmitsAllWalls()
    ensures InternalCount(2) == 4
    ensures DrawKinds(2, [Wall, Wall, Wall, Wall]) == Some([Wall, Wall, Wall, Wall])
    ensures Generator.DrawKinds(2, [Wall, Wall, Wall, Wall]) == None
  {
    var ws := [Wall, Wall, Wall, Wall];
    assert ws[..4] == ws;
    var g1 := Generator.Generator(4, 1);
    assert Generator.Saturated(g1);
    assert Generator.Select(g1, ws[1..]) == None;
    assert Generator.Select(Generator.New(2), ws) == Some((Wall, g1, ws[1..]));
  }
}

=== FILE: solo.dfy ===
/** The second version of the maze (`model/level.py`): stateless boundaries,
    the capped generator, and a single character that starts in the top-left
    room. */
module SoloLevel {
  import opened Maze
  import opened Grid
  import opened Stateless
  import Generator

  datatype Solo = Solo(board: Board, character: Character)

  /** `Level.__init__` of this version: the wired grid with the capped
      generator's classes inside and outward Walls, and the character put into
      `rooms[0][0]`, the room at (0, 0). */
  function NewLevel(n: nat, draws: seq<Kind>): (r: Option<Solo>)
    requires n >= 1
    ensures r.Some? <==> Generator.DrawKinds(n, draws).Some?
    ensures r.Some? ==> Wired(r.value.board) && r.value.board.size == n
    ensures r.Some? ==> r.value.character.room == Point(0, 0)
  {
    match Generator.DrawKinds(n, draws)
    case None => None
    case Some(ks) =>
      var g := Build(n, ks, Wall);
      BuildWired(n, ks, Wall);
      assert RoomAt(g, Point(0, 0)).location == Point(0, 0);
      Some(Solo(g, Character(g.rooms[0][0].location)))
  }

  /** Every outward slot holds a Wall, and every internal edge the class the
      capped generator accepted at that edge's turn. */
  lemma NewLevelGates(n: nat, draws: seq<Kind>, p: Point, d: Direction)
    requires n >= 1 && NewLevel(n, draws).Some? && InBounds(p, n)
    ensures var g := NewLevel(n, draws).value.board;
      var s := SlotOf(g, p, d);
      && s.Some? && s.value in g.boundaries
      && (!InBounds(Neighbour(p, d), n) ==> g.boundaries[s.value].gate == Wall)
      && (InBounds(Neighbour(p, d), n) ==>
            s.value.Inner? && IsHandle(n, s.value)
            && g.boundaries[s.value].gate == Generator.DrawKinds(n, draws).value[InnerIndex(n, s.value)])
  {
    BuildGates(n, Generator.DrawKinds(n, draws).value, Wall, p, d);
  }

  /** `is_character_in_this_room`, rooms compared by identity, i.e. by location
      in a wired level. */
  predicate IsCharacterInThisRoom(lv: Solo, room: Point)
  {
    lv.character.room == room
  }

  /** `_find_random_room` always answers `rooms[0][0]`: in a new level the
      character is found in the room at (0, 0) and in no other room. */
  lemma StartsAtOrigin(n: nat, draws: seq<Kind>)
    requires n >= 1 && NewLevel(n, draws).Some?
    ensures forall p :: IsCharacterInThisRoom(NewLevel(n, draws).value, p) <==> p == Point(0, 0)
  {
  }

  /** After one move from the start, the character is found in exactly one
      room: the room its starting room released it to, which lies in the
      level. */
  lemma FoundInOneRoom(n: nat, draws: seq<Kind>, d: Direction)
    requires n >= 1 && NewLevel(n, draws).Some?
    ensures var lv := NewLevel(n, draws).value;
      var moved := lv.(character := TryToGo(lv.board, lv.character, d));
      && InBounds(Release(lv.board, Point(0, 0), d), n)
      && forall p :: IsCharacterInThisRoom(moved, p) <==> p == Release(lv.board, Point(0, 0), d)
  {
  }
}

=== FILE: stateless.dfy ===
/** The boundaries, rooms and character of the two earlier versions
    (`model.py` and `model/level.py`, whose boundary code is identical): a
    boundary keeps no state besides its class, and the room that releases a
    character passes itself as the character's current room. */
module Stateless {
  import opened Maze
  import opened Grid

  /** A level whose boundaries are nothing but their class. */
  type Board = Grid<Kind>

  /** `move_character_to_another_room(character, current_room)`, returning the
      character's room afterwards: a Wall keeps it, a Door (and a Portal, which
      only defers to the Door) takes it to the other side when that side exists. */
  function Pass(bd: Boundary<Kind>, current: Point): (r: Point)
    // a Wall never lets anybody through
    ensures bd.gate == Wall ==> r == current
    // anything else crosses exactly when the boundary leads somewhere from here
    ensures bd.gate != Wall ==> (if Across(bd, Some(current)).Some? then Some(r) == Across(bd, Some(current)) else r == current)
  {
    match bd.gate
    case Wall => current
    case Door => DoorPass(bd, current)
    case Portal => DoorPass(bd, current)
  }

  /** `Door.move_character_to_another_room`. */
  function DoorPass(bd: Boundary<Kind>, current: Point): Point
  {
    if Some(current) == bd.room1 && bd.room2.Some? then bd.room2.value
    else if Some(current) == bd.room2 && bd.room1.Some? then bd.room1.value
    else current
  }

  /** A Portal of these versions is a Door: it has no timer yet. */
  lemma PortalIsDoor(bd: Boundary<Kind>, current: Point)
    ensures Pass(bd.(gate := Portal), current) == Pass(bd.(gate := Door), current)
    ensures bd.gate != Wall ==> Pass(bd, current) == Pass(bd.(gate := Door), current)
  {
  }

  /** Crossing a two-sided Door or Portal twice leads back. */
  lemma PassTwice(bd: Boundary<Kind>, current: Point)
    requires bd.gate != Wall && bd.room1.Some? && bd.room2.Some? && bd.room1 != bd.room2
    requires Some(current) == bd.room1 || Some(current) == bd.room2
    ensures Pass(bd, current) != current
    ensures Pass(bd, Pass(bd, current)) == current
  {
  }

  /** `Room.try_to_release_character_<d>`: an empty slot keeps the character;
      otherwise the boundary there moves it, with this room as its current room. */
  function Release(g: Board, p: Point, d: Direction): (r: Point)
    requires Closed(g) && InBounds(p, g.size)
    ensures SlotOf(g, p, d).None? ==> r == p
    ensures SlotOf(g, p, d).Some? ==> r == Pass(g.boundaries[SlotOf(g, p, d).value], p)
    ensures InBounds(r, g.size)
  {
    match SlotOf(g, p, d)
    case None => p
    case Some(b) =>
      assert RefsInBounds(g.boundaries[b], g.size);
      Pass(g.boundaries[b], p)
  }

  /** In a wired level, going in direction `d` leads to the neighbouring room
      exactly when there is one and the boundary in between is not a Wall. */
  lemma {:induction false} ReleaseStep(g: Board, p: Point, d: Direction)
    requires Wired(g) && InBounds(p, g.size)
    ensures SlotOf(g, p, d).Some? && SlotOf(g, p, d).value in g.boundaries
    ensures var q := Neighbour(p, d);
      Release(g, p, d) == if InBounds(q, g.size) && g.boundaries[SlotOf(g, p, d).value].gate != Wall then q else p
  {
    SlotCrossing(g, p, d);
  }

  /** Stepping through a Door or Portal and straight back returns to the start. */
  lemma {:induction false} StepBack(g: Board, p: Point, d: Direction, b: BoundaryId)
    requires Wired(g) && InBounds(p, g.size) && InBounds(Neighbour(p, d), g.size)
    requires SlotOf(g, p, d) == Some(b) && b in g.boundaries && g.boundaries[b].gate != Wall
    ensures Release(g, p, d) == Neighbour(p, d)
    ensures Release(g, Neighbour(p, d), Opposite(d)) == p
  {
    ReleaseStep(g, p, d);
    SlotCrossing(g, p, d);
    NeighbourOpposite(p, d);
    ReleaseStep(g, Neighbour(p, d), Opposite(d));
  }

  // ---------------------------------------------------------------------------
  // The character of `model.py`

  /** `Character(room)`: a character of these versions always has a room. */
  datatype Character = Character(room: Point)

  /** `Character.change_room` */
  function ChangeRoom(ch: Character, p: Point): Character
  {
    Character(p)
  }

  /** `Character.try_to_go_<d>`: the character's own room releases it. */
  function TryToGo(g: Board, ch: Character, d: Direction): (r: Character)
    requires Closed(g) && InBounds(ch.room, g.size)
    ensures InBounds(r.room, g.size)
    ensures r.room == Release(g, ch.room, d)
  {
    ChangeRoom(ch, Release(g, ch.room, d))
  }

  // ---------------------------------------------------------------------------
  // Text rendering

  /** A boundary's `__str__`: three characters for a horizontal boundary, one
      for a vertical one; a Door is blank and a Portal dashed. */
  function Glyph(k: Kind, pos: Position): (s: string)
    ensures |s| == if pos == Horizontal then 3 else 1
  {
    match k
    case Wall => if pos == Horizontal then "═══" else "║"
    case Door => if pos == Horizontal then "   " else " "
    case Portal => if pos == Horizontal then " - " else "⁞"
  }

  /** Not part of the program: a left inverse of `Glyph`, there only so that
      `GlyphRoundTrip` can state that the glyph map is injective. */
  function ParseGlyph(s: string, pos: Position): (r: Option<Kind>)
    ensures r.Some? ==> Glyph(r.value, pos) == s
  {
    if s == Glyph(Wall, pos) then Some(Wall)
    else if s == Glyph(Door, pos) then Some(Door)
    else if s == Glyph(Portal, pos) then Some(Portal)
    else None
  }

  /** The rendering loses nothing: each class has its own glyph at each
      position, so the class can be read back from the picture. */
  lemma GlyphRoundTrip(k: Kind, pos: Position)
    ensures ParseGlyph(Glyph(k, pos), pos) == Some(k)
  {
  }
}

=== FILE: timer.dfy ===
/** The portal's countdown, modelled from the `ITimer` interface only: its
    implementation is not part of this model. The behaviour below is an explicit
    assumption:
    - a new timer is inactive, has elapsed 0 ticks and a fixed `end`;
    - `start` marks it active and leaves the elapsed count alone;
    - `update` adds one tick, but only while the timer is active;
    - `reset` makes it inactive and zeroes the elapsed count;
    - `is_times_up` holds once the elapsed count has reached `end`.
    Ticks are abstract: there is no wall clock. */
module Timers {

  datatype Timer = Timer(active: bool, current: nat, end: nat)

  function New(amount: nat): Timer
  {
    Timer(false, 0, amount)
  }

  function Start(t: Timer): Timer
  {
    t.(active := true)
  }

  function Update(t: Timer): Timer
  {
    if t.active then t.(current := t.current + 1) else t
  }

  function Reset(t: Timer): Timer
  {
    t.(active := false, current := 0)
  }

  predicate IsTimesUp(t: Timer)
  {
    t.current >= t.end
  }

  /** `k` consecutive updates. */
  function Ticks(t: Timer, k: nat): (r: Timer)
    ensures r.end == t.end && r.active == t.active
    ensures r.current == if t.active then t.current + k else t.current
  {
    if k == 0 then t else Update(Ticks(t, k - 1))
  }

  /** A started timer of duration d is up after exactly d updates, and not before. */
  lemma ChargeNeedsEndTicks(amount: nat, k: nat)
    ensures IsTimesUp(Ticks(Start(New(amount)), k)) <==> k >= amount
  {
  }

  /** An inactive timer ignores updates, so it never charges. */
  lemma InactiveNeverCharges(t: Timer, k: nat)
    requires !t.active
    ensures Ticks(t, k) == t
  {
  }

  /** A reset timer is inactive and only up when its duration is zero. */
  lemma ResetDischarges(t: Timer)
    ensures !Reset(t).active && Reset(t).end == t.end
    ensures IsTimesUp(Reset(t)) <==> t.end == 0
  {
  }
}
